=== FILE: README.md ===
# ics-extractor, modelled in Dafny

The program reads the text of a therapy practice's appointment schedule,
finds every appointment line with one regular expression, and turns each
match into an appointment: the date and time go through
`datetime.strptime("%d.%m.%Y %H:%M")` and the therapist name is stripped. A
second part uploads appointments to a calendar. It lists the existing events
once and turns each appointment into an event, unless an event with the same
summary and start is already listed.

This project models both parts.

- `wrappers.dfy` (`Wrappers`): `Option`, `Result`, and `CollectAll`. `CollectAll`
  is the list comprehension that raises the first error.
- `text.dfy` (`Text`): ASCII character classes, decimal digits with zero
  padding, the scan for the first occurrence of a character, and
  `str.strip()`.
- `calendar.dfy` (`Calendar`): naive Python `datetime` values on the
  proleptic Gregorian calendar (years 1..9999). It also has
  `+ timedelta(minutes=n)` and `isoformat()`.
- `strptime.dfy` (`Strptime`): `strptime` on the digit layouts that the
  pattern lets through, with the error it raises for each broken rule.
- `extractor.dfy` (`Extractor`): the pattern
  `[A-Za-z]{2}(\d{2}\.\d{2}\.\d{4})(\d{2}:\d{2})[^(]+\(([^)]+)\)`, read on
  positions (`Shape`). It covers `re.search`, `re.finditer`,
  `_match_to_appointment` and `_extract_appointments`.
- `extractor_examples.dfy` (`ExtractorExamples`): the extractor on the texts
  of the test suite. Each text is assembled from its lines, so the general
  lemmas apply piece by piece.
- `upload.dfy` (`Upload`): the configuration defaults and the loop of
  `upload_appointments_to_google_calendar`. The loop is written both as a
  fold over per-appointment decisions and as a `while` loop that is proved
  equal to the fold.

Modelling choices:

- An `OverflowError` is modelled as the outcome `Aborted`. It is raised when
  `date + timedelta` leaves the years 1..9999. The outcome records the
  events inserted before the failure, because the source's
  `except Exception` ends the loop with those insertions already made.
- The events that are listed arrive as a parameter. The events to insert
  are the result.
- The reference function `Upload.Upload` works out every appointment's
  display name, ISO start/end and event body first. It then folds the
  skip/insert/abort decisions over them. `Upload.UploadLoop` is the source's
  loop. Its turns (`Upload.UploadTurn`) work these out one appointment at a
  time, and it leaves at the first overflow. It is proved to reach the same outcome.
- The loop is modelled for a configuration that defines the calendar id. The
  `Config` of config.py does not declare one, so the source as written stops
  with an `AttributeError` before the listing (see "## Left out").
- The upload reads `appointment.therapy_kind`
  (google_calendar.py:94). The `Appointment` of main.py:13-15 has no such
  field, so the upload has its own `Upload.Appointment` with a therapy kind.

The comment above the pattern (main.py:36) writes
"DayAbbrev DD.MM.YYYY HH:MM Treatment (TherapistName)" with blanks between
the fields. The model follows the pattern itself (main.py:38):

- The pattern has no room for blanks between the weekday, the date and the
  time.
- The pattern has three groups, and none of them captures the treatment.

An impossible date raises `ValueError`; the extraction does not skip the
line. The model shows this in `ExtractorExamples.InvalidDateFailsEverything`.

Several tests in test.py expect behaviour the code does not have:

- They expect the "Do 08.01.2026 14:30 O60 (Thomas)" layout to match
  (test.py:52-56, 135, 200-214, 263-274, 285).
- They expect a fourth group and a `therapy_kind` field (test.py:17-34,
  72, 147, 333-334).

The examples prove what the code does with those texts.

## Model

| member | source | states |
|---|---|---|
| Extractor.MatchAt | main.py:38 | An attempt at a position finds a match exactly when the pattern holds there. The name group then opens at the first '(' after the time and the match ends at the first ')' after that. Otherwise no match starts there. |
| Extractor.ShapeDeterminedByStart | main.py:38 | Because the greedy classes exclude the very bracket that follows them, a match is fixed by where it starts: its '(' and its end are forced. |
| Extractor.Search | main.py:46 | A search from a position returns a match at or after that position with no match starting before it. When it returns nothing, no match starts anywhere after the position. |
| Extractor.FindIter | main.py:46 | Every match finditer yields from a position starts at or after that position and has the pattern's shape there. |
| Extractor.FindIterIsLeftmost | main.py:46 | finditer returns matches in text order without overlap. Each is the leftmost match starting at or after the previous match's end, and none is missed after the last. |
| Extractor.FindIterUnique | main.py:46 | Those conditions leave exactly one sequence of matches: any sequence meeting them is what finditer returns. |
| Extractor.FindIterOrdered | main.py:46 | Every match ends after it starts and before any later match starts. |
| Extractor.FindIterInSuffix | main.py:46 | Searching a text from the end of a prefix finds the matches of the rest of the text, shifted by the prefix length. |
| Extractor.MatchToAppointment | main.py:50-57 | Converting a match succeeds exactly when the captured date and time name a Python datetime, and the appointment then carries that moment. A failure is tagged with the "date time" text that was parsed. |
| Extractor.MatchToAppointmentMeaning | main.py:50-57 | The converted appointment's name is the stripped name group and contains no ')'. A failure carries strptime's reason. |
| Extractor.ConvertAllFirstError | main.py:44-47 | The comprehension succeeds exactly when every match converts and then lists one appointment per match, in match order. Otherwise it fails with the error of the first match that does not convert, and there is no partial list. |
| Extractor.ExtractAppointments | main.py:41-47 | Extraction succeeds exactly when every match finditer returns converts, and then returns one appointment per match in match order. Otherwise it fails with the first failing match's error. |
| Extractor.ExtractedAppointments | main.py:41-57 | Every extracted appointment is a valid datetime whose date and time print back as the match's digits. Its name is the stripped name group and contains no ')'. The matches do not overlap. |
| Extractor.ExtractWithoutMatch | main.py:41-47 | A text in which no match starts anywhere, the empty text among them, yields an empty list and no error. |
| Extractor.ExtractWithoutParen | main.py:38-47 | A text without '(' yields an empty list and no error. |
| Extractor.NoMatchWithoutStart | main.py:38 | No match starts in a stretch of positions where two ASCII letters are never followed by a digit, and none starts anywhere in a text without '('. |
| Extractor.ExtractAfterNoise | main.py:41-47 | Text in front in which no match can start (no two letters followed by a digit, and not ending in a letter) changes nothing in the result. |
| Extractor.ExtractAfterMatch | main.py:41-47 | A text that starts with a complete match yields that match's conversion first, then whatever the rest of the text yields, with the first failure winning. |
| Wrappers.CollectAll | main.py:44-47 | Evaluating the results in order succeeds exactly when every one succeeds, and then returns their values in order, one per result. Otherwise it fails with an error whose result is preceded only by successes, so the first failure wins. |
| Text.IndexOf | main.py:38 | The scan returns a position holding the character with none of it before, from the start position on; when it returns nothing, the character does not occur from there on. This is where the pattern's `[^(]+` and `[^)]+` runs end. |
| Strptime.ParseDateTime | main.py:55-56 | strptime succeeds exactly when the day, month, year, hour and minute written name a Python datetime, and then returns those fields. |
| Strptime.ParseDateTimeReasons | main.py:56 | On failure it reports the first broken rule in strptime's order. Day, month or hour outside their patterns comes first, then minute 60..99 as unconverted data, then year 0, then a day past the month's end. |
| Strptime.ParseFormatRoundTrip | main.py:55-56 | Printing a datetime as "DD.MM.YYYY" and "HH:MM" and parsing it back gives the same datetime. |
| Strptime.FormatOfFields | main.py:55-56 | A date and time text whose fields name a valid datetime is exactly the printing of that datetime, so the digits read and the moment are in one-to-one correspondence. |
| Text.Strip | main.py:53 | The result is a slice of the input with only ASCII whitespace removed before and after it, and it neither starts nor ends with whitespace. |
| Text.StripIdempotent | main.py:53 | Stripping twice is stripping once. |
| Text.StripAddsNothing | main.py:53 | A character absent from the input is absent from the stripped result. |
| Text.StripSurrounded | main.py:53 | Whitespace padding around an unpadded word is removed entirely and the word is kept. |
| Calendar.DaysInMonth | main.py:56 | A month has 28 to 31 days, and 29 exactly for February of a Gregorian leap year. |
| Calendar.AddMinutes | google_calendar.py:99-101 | Adding n minutes gives a valid moment exactly n minutes later on the minute line. |
| Calendar.AddMinutesUnique | google_calendar.py:99-101 | That moment is the only valid one n minutes later. |
| Calendar.AddMinutesInverse | google_calendar.py:99-101 | Subtracting the added minutes gives back the start. |
| Calendar.AddMinutesCompose | google_calendar.py:99-101 | Two additions compose into one. |
| Calendar.AddMinutesCarriesIntoNewYear | google_calendar.py:99-101 | 2025-12-31 23:45 plus 30 minutes is 2026-01-01 00:15. |
| Calendar.AddMinutesCarriesOverLeapDay | google_calendar.py:99-101 | 2024-02-28 23:50 plus 30 minutes is 2024-02-29 00:20, and in 2025 it is 2025-03-01 00:20. |
| Calendar.IsoFormat | google_calendar.py:98-101 | isoformat of a naive moment always has the layout YYYY-MM-DDTHH:MM:SS with seconds "00" and nothing after them, so no UTC offset. |
| Calendar.IsoRoundTrip | google_calendar.py:98-101 | isoformat has the layout YYYY-MM-DDTHH:MM:SS with zero seconds, and reading its fields back gives the moment. |
| Calendar.IsoFormatInjective | google_calendar.py:98-103 | Distinct moments have distinct ISO strings, so the start part of the duplicate key tells moments apart. |
| Upload.ExistingKeys | google_calendar.py:83-86 | The key set holds exactly the (summary, start dateTime) pairs of the listed events. A missing field counts as None. |
| Upload.DisplayName | google_calendar.py:93-95 | A mapped therapy kind is shown under its configured name, and an unmapped one under itself. |
| Upload.JoinLines | google_calendar.py:112 | The location starts with the first address line. Its full meaning is in `Upload.SplitJoinLines`: it splits back into exactly the address lines. |
| Upload.SplitJoinLines | google_calendar.py:112 | When the address has at least one line and none contains a line feed, the joined location splits back into exactly the configured address lines. |
| Upload.EndTime | google_calendar.py:99-101 | When the end exists it is a valid moment in the years 1..9999 exactly the configured number of minutes after the start. |
| Upload.EndTimeMeaning | google_calendar.py:99-101 | The end exists exactly when some moment in the years 1..9999 lies the given number of minutes after the start, and then it is that moment. |
| Upload.PlanOf | google_calendar.py:93-123 | A turn's work before the key check: the event, when there is one, is filed under the plan's key, its summary and start. `Upload.PlanOutcome` and `Upload.PlanEvent` state what the key and each event field are. |
| Upload.PlanOutcome | google_calendar.py:93-103 | The duplicate key is the display name and the ISO start. The event is missing exactly when the end would leave the years 1..9999. |
| Upload.PlanEvent | google_calendar.py:110-123 | The event has the display name as its summary, the joined address as location and the therapist as description. Its start and end are in Europe/Berlin; their ISO strings read back as the appointment's moment and the moment the configured duration later. It is confirmed and is listed under the appointment's key. |
| Upload.TherapistOnlyDescribes | google_calendar.py:103-113 | The therapist changes neither the key nor whether the end overflows. It appears only in the description. |
| Upload.Decide | google_calendar.py:99-108 | A plan aborts exactly when it has no event, and an inserted event is the plan's own and was not listed. `Upload.DecideOutcome` states this in terms of the appointment. |
| Upload.DecideOutcome | google_calendar.py:103-108 | An appointment aborts exactly when its end leaves the years 1..9999. It is skipped exactly when its (display name, ISO start) key is listed, and is otherwise inserted with its own event. |
| Upload.Step | google_calendar.py:99-128 | One loop turn: an aborted loop stays as it is and insertions are never undone. A completed turn counts the appointment once, and only an insertion adds an event. An abort comes from an overflow at that appointment. `Upload.Fold` and `Upload.FoldInsertsNewEvents` state what the whole loop inserts and counts. |
| Upload.Fold | google_calendar.py:88-128 | A completed loop counts every appointment once, as uploaded or as skipped, with one insertion per upload. An aborted loop stops at an appointment inside the input. |
| Upload.FoldAbortsAtFirstOverflow | google_calendar.py:88-128 | The loop completes exactly when no appointment overflows, and otherwise aborts at the first one that does. |
| Upload.RunStopsAtFirstOverflow | google_calendar.py:91-108 | Against any key set, the loop over the plans completes exactly when every plan has its event, and otherwise stops at the first plan without one. |
| Upload.Upload | google_calendar.py:88-128 | A completed upload counts every appointment once, as uploaded or as skipped, with one inserted event per upload. An aborted upload stops at an appointment inside the input. |
| Upload.UploadCompletes | google_calendar.py:88-128 | The upload completes exactly when every appointment's end stays within the years 1..9999. It then counts each appointment once, as uploaded or as skipped. |
| Upload.UploadAbortsAtFirstOverflow | google_calendar.py:99-101 | An aborted upload stops at the first appointment whose end leaves the years 1..9999; every earlier end is in range. |
| Upload.FoldInsertsNewEvents | google_calendar.py:103-128 | A completed loop inserts exactly the events of the unlisted appointments, in input order, and skips exactly the listed ones. An aborted loop has inserted those before the failing appointment. |
| Upload.UploadConcat | google_calendar.py:83-108 | The key set is read once and never updated, so one run over two batches equals the two batches run against the same keys. The counts add up and a failure in the second batch is reported at its overall position. |
| Upload.UnlistedDuplicateInsertedTwice | google_calendar.py:103-108 | An unlisted appointment that occurs twice in one run is inserted twice, because the key set is not updated during the loop. |
| Upload.RerunSkipsEverything | google_calendar.py:83-108 | After a completed run, once its inserted events are listed beside the earlier ones, running again uploads nothing and skips every appointment. |
| Upload.FoldStopsAt | google_calendar.py:99-101 | Once the loop has aborted, the appointments after the failing one change nothing. |
| Upload.RunLoop | google_calendar.py:88-128 | The while loop with its two counters computes the same outcome as the fold over the decisions. |
| Upload.UploadLoop | google_calendar.py:88-128 | The source's loop, one appointment per turn, leaving at the first overflow, reaches the same outcome as working out every appointment's plan first and then folding the decisions. |
| Upload.UploadTurn | google_calendar.py:93-127 | One turn aborts exactly when the appointment's end has no moment in the years 1..9999. Otherwise it skips exactly when the (display name, ISO start) key is listed. An inserted event has the display name as summary, the joined address as location, the therapist as description, status "confirmed" and Europe/Berlin times. Its start reads back as the appointment's moment and its end as the moment the configured duration later. The decision is the one the plan-first reference makes for that appointment. |
| Upload.OffsetStartNotRecognised | google_calendar.py:83-108 | An event listed with the same summary but with its start written as the naive ISO start followed by an offset is not recognised as a duplicate. The appointment is inserted again. |
| ExtractorExamples.EmptyText | test.py:162-165 | The empty text yields no appointments and no error. |
| ExtractorExamples.TextWithoutAppointments | test.py:167-171 | "This is some random text without any appointments." yields no appointments. |
| ExtractorExamples.SingleAppointment | test.py:173-179 | "Di27.01.202616:40KG ZNS (Katja)" yields exactly one appointment: 2026-01-27 16:40 with Katja. |
| ExtractorExamples.MultipleAppointments | test.py:181-198 | The four indented lines yield their four appointments in the order written. |
| ExtractorExamples.MixedFormatSkipsSpacedLine | test.py:200-214 | The line written with blanks is passed over. The code yields the Katja and Mike appointments only, where the test expects three. |
| ExtractorExamples.AppointmentsWithSurroundingText | test.py:216-233 | The letterhead, the prescription date "08.02.2023" and the closing remark contribute nothing; the two lines yield 16:40 and 17:10. |
| ExtractorExamples.AppointmentsInDifferentMonths | test.py:235-248 | Lines in January to April yield appointments in months 1, 2, 3 and 4, in that order. |
| ExtractorExamples.AppointmentsInOrderOfOccurrence | test.py:250-261 | Appointments follow the text, not the calendar: the 29th comes before the 27th. |
| ExtractorExamples.TreatmentCodesSkipSpacedLine | test.py:263-274 | "MT" and "Massage" lines match like any other; with the line with blanks passed over, three appointments come out where the test expects four. |
| ExtractorExamples.PaddedName | test.py:149-155 | Blanks inside the parentheses do not reach the name. |
| ExtractorExamples.NameWithTitle | test.py:85-89 | "Dr. Smith" keeps its title and inner blank. |
| ExtractorExamples.NoMatchWithoutWeekday | test.py:296-300 | Without the weekday abbreviation nothing matches. |
| ExtractorExamples.NoMatchWithoutTime | test.py:301 | Without the time nothing matches. |
| ExtractorExamples.NoMatchWithoutParentheses | test.py:302-306 | Without parentheses nothing matches. |
| ExtractorExamples.NoMatchWithSlashes | test.py:307-311 | Slashes as date separators match nothing. |
| ExtractorExamples.NoMatchWithDashes | test.py:312-316 | Dashes as date separators match nothing. |
| ExtractorExamples.NoMatchWithBlanks | test.py:285 | "Do 08.01.2026 14:30 O60 (Thomas)" matches nothing, although the test lists it as a valid format. |
| ExtractorExamples.February31Rejected | main.py:56 | "31.02.2026 16:40" fails with the day out of range. |
| ExtractorExamples.February29Of2025Rejected | main.py:56 | "29.02.2025" fails with the day out of range. |
| ExtractorExamples.February29Of2024Accepted | main.py:56 | "29.02.2024 16:40" parses, because 2024 is a leap year. |
| ExtractorExamples.YearZeroRejected | main.py:56 | Year 0000 fails as out of range. |
| ExtractorExamples.DayZeroRejected | main.py:56 | Day 00 does not fit the day pattern. |
| ExtractorExamples.Hour24Rejected | main.py:56 | Hour 24 does not fit the hour pattern. |
| ExtractorExamples.Minute60Rejected | main.py:56 | Minute 60 leaves a digit unconverted. |
| ExtractorExamples.InvalidDateFailsEverything | main.py:44-56 | A good line followed by one dated 31.02.2026 yields no list at all, only the day-out-of-range error, tagged with "31.02.2026 16:40". |

## Left out

- Reading the PDF, joining its pages and printing the result (main.py:18-33) are I/O. Their text is the input of `ExtractAppointments`.
- The OAuth credential flow and token file (google_calendar.py:19-53) are I/O.
- The calendar API: building the service, listing events up to 2500 from `now`, and the insert call (google_calendar.py:68-82, 125-127). The listed events are a parameter and the insertions are the result. The clock value `now` only bounds the listing and is not modelled.
- `config.google_calendar_id` (google_calendar.py:72, 75, 126) names a setting that the `Config` of config.py:8-18 does not declare. `Config` is a pydantic `BaseModel`, which by default drops unknown keys when it loads its JSON file. So, with these files, the read in the message at google_calendar.py:72 raises `AttributeError` before the listing. The `except Exception` at google_calendar.py:134-135 prints it, and neither the listing (google_calendar.py:74-80) nor the loop (google_calendar.py:91-128) runs. `Upload.Upload` and `Upload.UploadLoop` model the loop for a configuration that does define the calendar id. The id itself only addresses the API and is not modelled. The model's `Upload.Config` has the three fields config.py:9-18 defines, with their defaults in `Upload.DefaultConfig`.
- `Config.load_or_default` (config.py:21-31) reads and writes a JSON file, which is I/O.
- Printing the counters and the catch-all `except Exception` (google_calendar.py:130-135). The counters are the `uploaded` and `skipped` fields of the outcome. An `OverflowError` inside the loop is the `Aborted` outcome. The other exceptions come from the API and the network.
- `\d` and `str.strip()` also accept non-ASCII digits and whitespace in Python, such as U+0085, U+00A0 and U+2003. The model uses the ASCII classes only: the digits 0-9, and as whitespace the space, tab, line feed, vertical tab, form feed, carriage return and the separators 0x1C-0x1F. A non-ASCII digit in the date would be a further case for strptime.
- The wording of strptime's `ValueError` messages is not modelled. Python quotes the data only for a format mismatch. The other three messages are "unconverted data remains: ...", "year 0 is out of range" and "day is out of range for month". The model's error carries the parsed "date time" text and a reason tag instead.
- Upload.RerunSkipsEverything: assumes that the listing returns each inserted event's summary and `start.dateTime` exactly as they were sent: a naive ISO string without an offset. It also assumes the listing is complete. The calendar service may write the start with a UTC offset, and then no duplicate is recognised (`Upload.OffsetStartNotRecognised`). The listing also covers only events from `now` on and at most 2500 of them (google_calendar.py:74-80). Neither the service's format nor these limits are modelled.
- Seconds and microseconds are not modelled: every datetime in this program has them at zero, and `isoformat()` prints ":00".
- Tests that construct `Appointment` with a `therapy_kind` or read a fourth group (test.py:17-34, 41-73, 131-147, 326-334) do not match the code and have no counterpart.

=== FILE: calendar.dfy ===
/** Naive Python `datetime` values as this program produces them: proleptic
    Gregorian calendar, years 1..9999, minute resolution (seconds and
    microseconds are always zero here), and `timedelta(minutes=n)` addition. */
module Calendar {
  import opened Text

  datatype DateTime = DateTime(year: int, month: int, day: int, hour: int, minute: int)

  /** `datetime.MINYEAR` and `datetime.MAXYEAR`. */
  const MinYear: int := 1
  const MaxYear: int := 9999

  const MinutesPerDay: int := 1440

  /** The Gregorian leap-year rule. */
  predicate IsLeapYear(y: int) {
    y % 4 == 0 && (y % 100 != 0 || y % 400 == 0)
  }

  function DaysInYear(y: int): int {
    if IsLeapYear(y) then 366 else 365
  }

  function DaysInMonth(y: int, m: int): (n: int)
    requires 1 <= m <= 12
    ensures 28 <= n <= 31
    ensures n == 29 <==> m == 2 && IsLeapYear(y)
  {
    if m == 2 then (if IsLeapYear(y) then 29 else 28)
    else if m == 4 || m == 6 || m == 9 || m == 11 then 30
    else 31
  }

  /** Month, day, hour and minute name an existing moment (any year). */
  predicate ValidDateTime(dt: DateTime) {
    && 1 <= dt.month <= 12
    && 1 <= dt.day <= DaysInMonth(dt.year, dt.month)
    && 0 <= dt.hour < 24
    && 0 <= dt.minute < 60
  }

  /** The values a Python `datetime` can hold. */
  predicate IsPyDateTime(dt: DateTime) {
    ValidDateTime(dt) && MinYear <= dt.year <= MaxYear
  }

  /** Days in the years before `y`, counted from 0001-01-01 (any integer year). */
  function DaysBeforeYear(y: int): int {
    var p := y - 1;
    365 * p + p / 4 - p / 100 + p / 400
  }

  /** Days in the months of year `y` before month `m`. */
  function DaysBeforeMonth(y: int, m: int): int
    requires 1 <= m <= 12
  {
    var common :=
      match m
      case 1 => 0 case 2 => 31 case 3 => 59 case 4 => 90
      case 5 => 120 case 6 => 151 case 7 => 181 case 8 => 212
      case 9 => 243 case 10 => 273 case 11 => 304 case _ => 334;
    common + (if m > 2 && IsLeapYear(y) then 1 else 0)
  }

  /** The proleptic Gregorian ordinal: 0001-01-01 is day 1 (`date.toordinal()`). */
  function DayNumber(dt: DateTime): int
    requires 1 <= dt.month <= 12
  {
    DaysBeforeYear(dt.year) + DaysBeforeMonth(dt.year, dt.month) + dt.day
  }

  /** Minutes elapsed since 0001-01-01 00:00 minus one day: a moment's position
      on a single time line. */
  function MinuteNumber(dt: DateTime): int
    requires 1 <= dt.month <= 12
  {
    DayNumber(dt) * MinutesPerDay + dt.hour * 60 + dt.minute
  }

  lemma FloorStep(y: int, k: int)
    requires k == 4 || k == 100 || k == 400
    ensures y / k - (y - 1) / k == (if y % k == 0 then 1 else 0)
  {
  }

  /** Moving one year forward adds that year's length. */
  lemma YearStep(y: int)
    ensures DaysBeforeYear(y + 1) == DaysBeforeYear(y) + DaysInYear(y)
  {
    FloorStep(y, 4);
    FloorStep(y, 100);
    FloorStep(y, 400);
  }

  lemma MonthStep(y: int, m: int)
    requires 1 <= m < 12
    ensures DaysBeforeMonth(y, m + 1) == DaysBeforeMonth(y, m) + DaysInMonth(y, m)
  {
  }

  lemma MonthEndWithinYear(y: int, m: int)
    requires 1 <= m <= 12
    ensures DaysBeforeMonth(y, m) + DaysInMonth(y, m) <= DaysInYear(y)
    ensures m == 12 ==> DaysBeforeMonth(y, m) + DaysInMonth(y, m) == DaysInYear(y)
  {
  }

  /** The calendar day after `dt`, with month and year carry; time of day kept. */
  function NextDay(dt: DateTime): (r: DateTime)
    requires ValidDateTime(dt)
    ensures ValidDateTime(r) && r.hour == dt.hour && r.minute == dt.minute
    ensures DayNumber(r) == DayNumber(dt) + 1
  {
    if dt.day < DaysInMonth(dt.year, dt.month) then dt.(day := dt.day + 1)
    else if dt.month < 12 then
      MonthStep(dt.year, dt.month);
      dt.(month := dt.month + 1, day := 1)
    else
      MonthEndWithinYear(dt.year, 12);
      YearStep(dt.year);
      dt.(year := dt.year + 1, month := 1, day := 1)
  }

  /** The calendar day before `dt`, with month and year borrow; time of day kept. */
  function PrevDay(dt: DateTime): (r: DateTime)
    requires ValidDateTime(dt)
    ensures ValidDateTime(r) && r.hour == dt.hour && r.minute == dt.minute
    ensures DayNumber(r) == DayNumber(dt) - 1
  {
    if dt.day > 1 then dt.(day := dt.day - 1)
    else if dt.month > 1 then
      MonthStep(dt.year, dt.month - 1);
      dt.(month := dt.month - 1, day := DaysInMonth(dt.year, dt.month - 1))
    else
      MonthEndWithinYear(dt.year - 1, 12);
      YearStep(dt.year - 1);
      dt.(year := dt.year - 1, month := 12, day := 31)
  }

  /** `dt` moved by `k` whole days, one carry at a time. */
  function AddDays(dt: DateTime, k: int): (r: DateTime)
    requires ValidDateTime(dt)
    decreases if k < 0 then -k else k
    ensures ValidDateTime(r) && r.hour == dt.hour && r.minute == dt.minute
    ensures DayNumber(r) == DayNumber(dt) + k
  {
    if k == 0 then dt
    else if k > 0 then AddDays(NextDay(dt), k - 1)
    else AddDays(PrevDay(dt), k + 1)
  }

  /** `dt + timedelta(minutes=n)` before the year-range check: the minute of
      the day wraps and the overflow in whole days is carried into the date. */
  function AddMinutes(dt: DateTime, n: int): (r: DateTime)
    requires ValidDateTime(dt)
    ensures ValidDateTime(r)
    ensures MinuteNumber(r) == MinuteNumber(dt) + n
  {
    var total := dt.hour * 60 + dt.minute + n;
    var ofDay := total % MinutesPerDay;
    var shifted := AddDays(dt, total / MinutesPerDay);
    shifted.(hour := ofDay / 60, minute := ofDay % 60)
  }

  /** Years are laid out in order on the day line. */
  lemma {:induction false} DaysBeforeYearMonotone(a: int, b: int)
    requires a < b
    ensures DaysBeforeYear(a + 1) <= DaysBeforeYear(b)
    decreases b - a
  {
    YearStep(a);
    if a + 1 < b {
      DaysBeforeYearMonotone(a + 1, b);
      YearStep(a + 1);
    }
  }

  lemma DayNumberWithinYear(dt: DateTime)
    requires ValidDateTime(dt)
    ensures DaysBeforeYear(dt.year) < DayNumber(dt) <= DaysBeforeYear(dt.year + 1)
  {
    MonthEndWithinYear(dt.year, dt.month);
    YearStep(dt.year);
  }

  lemma MonthsInOrder(y: int, m1: int, m2: int)
    requires 1 <= m1 < m2 <= 12
    ensures DaysBeforeMonth(y, m1) + DaysInMonth(y, m1) <= DaysBeforeMonth(y, m2)
  {
  }

  /** Distinct calendar days have distinct ordinals. */
  lemma DayNumberInjective(a: DateTime, b: DateTime)
    requires ValidDateTime(a) && ValidDateTime(b)
    requires DayNumber(a) == DayNumber(b)
    ensures a.year == b.year && a.month == b.month && a.day == b.day
  {
    DayNumberWithinYear(a);
    DayNumberWithinYear(b);
    if a.year < b.year {
      DaysBeforeYearMonotone(a.year, b.year);
    } else if b.year < a.year {
      DaysBeforeYearMonotone(b.year, a.year);
    } else if a.month < b.month {
      MonthsInOrder(a.year, a.month, b.month);
    } else if b.month < a.month {
      MonthsInOrder(a.year, b.month, a.month);
    }
  }

  /** Distinct moments have distinct positions on the minute line, so a moment
      is determined by its minute number. */
  lemma MinuteNumberInjective(a: DateTime, b: DateTime)
    requires ValidDateTime(a) && ValidDateTime(b)
    requires MinuteNumber(a) == MinuteNumber(b)
    ensures a == b
  {
    assert DayNumber(a) == DayNumber(b);
    DayNumberInjective(a, b);
  }

  /** Adding minutes is the unique valid moment that far along the time line. */
  lemma AddMinutesUnique(dt: DateTime, n: int, r: DateTime)
    requires ValidDateTime(dt) && ValidDateTime(r)
    requires MinuteNumber(r) == MinuteNumber(dt) + n
    ensures AddMinutes(dt, n) == r
  {
    MinuteNumberInjective(AddMinutes(dt, n), r);
  }

  /** Two additions compose into one. */
  lemma AddMinutesCompose(dt: DateTime, m: int, n: int)
    requires ValidDateTime(dt)
    ensures AddMinutes(AddMinutes(dt, m), n) == AddMinutes(dt, m + n)
  {
    var once := AddMinutes(dt, m);
    var twice := AddMinutes(once, n);
    var direct := AddMinutes(dt, m + n);
    assert MinuteNumber(once) == MinuteNumber(dt) + m;
    assert MinuteNumber(twice) == MinuteNumber(once) + n;
    assert MinuteNumber(direct) == MinuteNumber(dt) + (m + n);
    MinuteNumberInjective(twice, direct);
  }

  /** Subtracting the minutes that were added gives back the start. */
  lemma AddMinutesInverse(dt: DateTime, n: int)
    requires ValidDateTime(dt)
    ensures AddMinutes(AddMinutes(dt, n), -n) == dt
  {
    var back := AddMinutes(AddMinutes(dt, n), -n);
    assert MinuteNumber(back) == MinuteNumber(dt);
    MinuteNumberInjective(back, dt);
  }

  /** The year-end carry: 2025-12-31 23:45 plus 30 minutes is 2026-01-01 00:15. */
  lemma AddMinutesCarriesIntoNewYear()
    ensures AddMinutes(DateTime(2025, 12, 31, 23, 45), 30) == DateTime(2026, 1, 1, 0, 15)
  {
    AddMinutesUnique(DateTime(2025, 12, 31, 23, 45), 30, DateTime(2026, 1, 1, 0, 15));
  }

  /** The leap-day carry: 2024-02-28 23:50 plus 30 minutes is 2024-02-29 00:20,
      while in 2025 it is 2025-03-01 00:20. */
  lemma AddMinutesCarriesOverLeapDay()
    ensures AddMinutes(DateTime(2024, 2, 28, 23, 50), 30) == DateTime(2024, 2, 29, 0, 20)
    ensures AddMinutes(DateTime(2025, 2, 28, 23, 50), 30) == DateTime(2025, 3, 1, 0, 20)
  {
    AddMinutesUnique(DateTime(2024, 2, 28, 23, 50), 30, DateTime(2024, 2, 29, 0, 20));
    AddMinutesUnique(DateTime(2025, 2, 28, 23, 50), 30, DateTime(2025, 3, 1, 0, 20));
  }

  /** The layout `YYYY-MM-DDTHH:MM:SS` that `datetime.isoformat()` produces for
      a naive value without microseconds (RFC 3339 section 5.6
      `full-date "T" partial-time`, no offset). */
  predicate IsoLayout(s: string) {
    && |s| == 19
    && AllDigits(s[0..4]) && s[4] == '-'
    && AllDigits(s[5..7]) && s[7] == '-'
    && AllDigits(s[8..10]) && s[10] == 'T'
    && AllDigits(s[11..13]) && s[13] == ':'
    && AllDigits(s[14..16]) && s[16] == ':'
    && AllDigits(s[17..19])
  }

  /** Joining digit fields of the right widths gives the ISO layout, and
      each field stays at its place. */
  lemma IsoLayoutOfFields(y: string, mo: string, d: string, h: string, mi: string)
    requires |y| == 4 && |mo| == 2 && |d| == 2 && |h| == 2 && |mi| == 2
    requires AllDigits(y) && AllDigits(mo) && AllDigits(d) && AllDigits(h) && AllDigits(mi)
    ensures var s := y + "-" + mo + "-" + d + "T" + h + ":" + mi + ":00";
      && IsoLayout(s)
      && s[0..4] == y && s[5..7] == mo && s[8..10] == d
      && s[11..13] == h && s[14..16] == mi && s[17..19] == "00"
  {
    var date := y + "-" + mo + "-" + d;
    assert date[0..4] == y && date[5..7] == mo && date[8..10] == d;
    var clock := h + ":" + mi + ":00";
    assert clock[0..2] == h && clock[3..5] == mi && clock[6..8] == "00";
    var s := date + "T" + clock;
    assert s == y + "-" + mo + "-" + d + "T" + h + ":" + mi + ":00";
    assert s[..10] == date && s[10] == 'T' && s[11..] == clock;
    assert s[0..4] == date[0..4] && s[5..7] == date[5..7] && s[8..10] == date[8..10];
    assert s[11..13] == clock[0..2] && s[14..16] == clock[3..5] && s[17..19] == clock[6..8];
  }

  /** `datetime.isoformat()` of a naive value with zero seconds: always the
      layout YYYY-MM-DDTHH:MM:SS, seconds "00", and no UTC offset (the
      string ends after the seconds). */
  function IsoFormat(dt: DateTime): (s: string)
    requires IsPyDateTime(dt)
    ensures IsoLayout(s) && s[17..19] == "00"
  {
    IsoLayoutOfFields(ZeroPadded(dt.year, 4), ZeroPadded(dt.month, 2), ZeroPadded(dt.day, 2),
                      ZeroPadded(dt.hour, 2), ZeroPadded(dt.minute, 2));
    ZeroPadded(dt.year, 4) + "-" + ZeroPadded(dt.month, 2) + "-" + ZeroPadded(dt.day, 2) + "T"
      + ZeroPadded(dt.hour, 2) + ":" + ZeroPadded(dt.minute, 2) + ":00"
  }

  /** Reads the date and time fields back out of an ISO string. */
  function IsoFields(s: string): DateTime
    requires IsoLayout(s)
  {
    DateTime(DecimalValue(s[0..4]), DecimalValue(s[5..7]), DecimalValue(s[8..10]),
             DecimalValue(s[11..13]), DecimalValue(s[14..16]))
  }

  /** The ISO string has the ISO layout, zero seconds, and carries every
      field of the moment. */
  lemma IsoRoundTrip(dt: DateTime)
    requires IsPyDateTime(dt)
    ensures IsoLayout(IsoFormat(dt)) && IsoFormat(dt)[17..19] == "00"
    ensures IsoFields(IsoFormat(dt)) == dt
  {
    IsoLayoutOfFields(ZeroPadded(dt.year, 4), ZeroPadded(dt.month, 2), ZeroPadded(dt.day, 2),
                      ZeroPadded(dt.hour, 2), ZeroPadded(dt.minute, 2));
  }

  /** Distinct date-times give distinct ISO strings. */
  lemma IsoFormatInjective(a: DateTime, b: DateTime)
    requires IsPyDateTime(a) && IsPyDateTime(b)
    requires a != b
    ensures IsoFormat(a) != IsoFormat(b)
  {
    IsoRoundTrip(a);
    IsoRoundTrip(b);
  }
}

=== FILE: extractor.dfy ===
/** The appointment extractor: the pattern
      [A-Za-z]{2}(\d{2}\.\d{2}\.\d{4})(\d{2}:\d{2})[^(]+\(([^)]+)\)
    found left to right without overlap (`re.finditer`), each match turned
    into an appointment, and the first impossible date or time failing the
    whole extraction. */
module Extractor {
  import opened Wrappers
  import opened Text
  import opened Calendar
  import opened Strptime

  /** An extracted appointment: when, and with whom. */
  datatype Appointment = Appointment(date: DateTime, therapistName: string)

  /** The `ValueError` of `strptime`: the "date time" text that was parsed
      and the reason it was refused (not Python's message wording). */
  datatype ExtractError = InvalidDateTime(text: string, reason: DateTimeError)

  /** A match `s[start..end]` whose name group opens with the '(' at `open`. */
  datatype Span = Span(start: nat, open: nat, end: nat)

  /** The pattern, read on positions: `s[p..e]` matches it, with the
      parenthesis that opens the name at `q`. */
  ghost predicate Shape(s: string, p: int, q: int, e: int) {
    && 0 <= p && p + 17 < q && q + 2 < e && e <= |s|
    // [A-Za-z]{2}
    && IsAsciiLetter(s[p]) && IsAsciiLetter(s[p + 1])
    // (\d{2}\.\d{2}\.\d{4}) then (\d{2}:\d{2}), with nothing in between
    && DateLayout(s[p + 2..p + 12])
    && TimeLayout(s[p + 12..p + 17])
    // [^(]+ then \(
    && (forall k :: p + 17 <= k < q ==> s[k] != '(')
    && s[q] == '('
    // ([^)]+) then \)
    && (forall k :: q < k < e - 1 ==> s[k] != ')')
    && s[e - 1] == ')'
  }

  /** No match of the pattern starts at a position in `lo..hi`. */
  ghost predicate NoMatchStartsIn(s: string, lo: int, hi: int) {
    forall p, q, e :: lo <= p < hi ==> !Shape(s, p, q, e)
  }

  /** Where a match starts, its '(' and its end are forced: the greedy
      `[^(]+` can only give way at the first '(' after the time, and `[^)]+`
      at the first ')' after that. */
  lemma ShapeDeterminedByStart(s: string, p: int, q1: int, e1: int, q2: int, e2: int)
    requires Shape(s, p, q1, e1) && Shape(s, p, q2, e2)
    ensures q1 == q2 && e1 == e2
  {
  }

  /** The regex engine anchored at `p`: the pattern's match starting at `p`, if any. */
  function MatchAt(s: string, p: nat): (r: Option<Span>)
    ensures r.Some? ==> r.value.start == p && Shape(s, p, r.value.open, r.value.end)
    ensures r.None? ==> forall q, e :: !Shape(s, p, q, e)
  {
    if p + 17 <= |s| && IsAsciiLetter(s[p]) && IsAsciiLetter(s[p + 1])
       && DateLayout(s[p + 2..p + 12]) && TimeLayout(s[p + 12..p + 17])
    then
      match IndexOf(s, '(', p + 17)
      case None => None
      case Some(q) =>
        if q == p + 17 then None
        else
          match IndexOf(s, ')', q + 1)
          case None => None
          case Some(c) =>
            if c == q + 1 then None
            else Some(Span(p, q, c + 1))
    else None
  }

  /** `re.search(pattern, s, pos=from)`: the leftmost match starting at or after `from`. */
  function Search(s: string, from: nat): (r: Option<Span>)
    decreases |s| - from
    ensures r.Some? ==> from <= r.value.start && Shape(s, r.value.start, r.value.open, r.value.end)
    ensures r.Some? ==> NoMatchStartsIn(s, from, r.value.start)
    ensures r.None? ==> NoMatchStartsIn(s, from, |s|)
  {
    if from >= |s| then None
    else
      match MatchAt(s, from)
      case Some(m) => Some(m)
      case None => Search(s, from + 1)
  }

  /** `ms` is what `re.finditer` yields from position `from`: matches in
      order, each the leftmost one starting at or after the previous
      match's end, and no further match after the last. */
  ghost predicate IsFindIter(s: string, from: int, ms: seq<Span>) {
    && (forall i :: 0 <= i < |ms| ==> Shape(s, ms[i].start, ms[i].open, ms[i].end))
    && (|ms| > 0 ==> from <= ms[0].start && NoMatchStartsIn(s, from, ms[0].start))
    && (forall i, j :: 0 <= i && j == i + 1 && j < |ms| ==> ms[i].end <= ms[j].start)
    && (forall i, j :: 0 <= i && j == i + 1 && j < |ms| ==> NoMatchStartsIn(s, ms[i].end, ms[j].start))
    && NoMatchStartsIn(s, if |ms| == 0 then from else ms[|ms| - 1].end, |s|)
  }

  /** `re.finditer(pattern, s)` from position `from`: search, resume at the
      end of the match, repeat. Every item is a match starting at or after
      `from`; `FindIterIsLeftmost` states the rest of what it yields. */
  function FindIter(s: string, from: nat): (ms: seq<Span>)
    decreases |s| - from
    ensures forall i :: 0 <= i < |ms| ==> from <= ms[i].start && Shape(s, ms[i].start, ms[i].open, ms[i].end)
  {
    match Search(s, from)
    case None => []
    case Some(m) => [m] + FindIter(s, m.end)
  }

  /** The matches come in order without overlap, each the leftmost one at or
      after the previous match's end, and none is missed after the last. */
  lemma {:induction false} FindIterIsLeftmost(s: string, from: nat)
    ensures IsFindIter(s, from, FindIter(s, from))
    decreases |s| - from
  {
    match Search(s, from)
    case None =>
    case Some(m) =>
      FindIterIsLeftmost(s, m.end);
      FindIterCons(s, from, m, FindIter(s, m.end));
  }

  /** A leftmost match in front of what finditer yields from its end. */
  lemma FindIterCons(s: string, from: int, m: Span, rest: seq<Span>)
    requires from <= m.start && Shape(s, m.start, m.open, m.end)
    requires NoMatchStartsIn(s, from, m.start)
    requires IsFindIter(s, m.end, rest)
    ensures IsFindIter(s, from, [m] + rest)
  {
    var ms := [m] + rest;
    ConsShaped(s, m, rest);
    ConsChained(s, m, rest);
    assert ms[|ms| - 1].end == if |rest| == 0 then m.end else rest[|rest| - 1].end;
  }

  lemma ConsChained(s: string, m: Span, rest: seq<Span>)
    requires |rest| > 0 ==> m.end <= rest[0].start && NoMatchStartsIn(s, m.end, rest[0].start)
    requires forall i, j :: 0 <= i && j == i + 1 && j < |rest| ==> rest[i].end <= rest[j].start
    requires forall i, j :: 0 <= i && j == i + 1 && j < |rest| ==> NoMatchStartsIn(s, rest[i].end, rest[j].start)
    ensures var ms := [m] + rest;
            forall i, j :: 0 <= i && j == i + 1 && j < |ms| ==>
              ms[i].end <= ms[j].start && NoMatchStartsIn(s, ms[i].end, ms[j].start)
  {
    var ms := [m] + rest;
    forall i, j | 0 <= i && j == i + 1 && j < |ms|
      ensures ms[i].end <= ms[j].start && NoMatchStartsIn(s, ms[i].end, ms[j].start)
    {
      if i > 0 {
        assert ms[i] == rest[i - 1] && ms[j] == rest[j - 1];
      }
    }
  }

  /** After the first match, the rest is what `re.finditer` yields from
      that match's end. */
  lemma FindIterTail(s: string, from: int, ms: seq<Span>)
    requires IsFindIter(s, from, ms) && |ms| > 0
    ensures IsFindIter(s, ms[0].end, ms[1..])
  {
    var rest := ms[1..];
    forall i | 0 <= i < |rest|
      ensures Shape(s, rest[i].start, rest[i].open, rest[i].end)
    {
      assert rest[i] == ms[i + 1];
    }
    forall i, j | 0 <= i && j == i + 1 && j < |rest|
      ensures rest[i].end <= rest[j].start && NoMatchStartsIn(s, rest[i].end, rest[j].start)
    {
      assert rest[i] == ms[i + 1] && rest[j] == ms[j + 1];
    }
    if rest != [] {
      assert ms[0].end <= ms[1].start && NoMatchStartsIn(s, ms[0].end, ms[1].start);
      assert rest[|rest| - 1] == ms[|ms| - 1];
    }
  }

  /** The conditions of `IsFindIter` leave exactly one sequence of matches. */
  lemma {:induction false} FindIterUnique(s: string, from: nat, ms: seq<Span>)
    requires IsFindIter(s, from, ms)
    ensures ms == FindIter(s, from)
    decreases |s| - from
  {
    if ms == [] {
      FindIterDone(s, from);
    } else {
      var m := ms[0];
      FindIterStep(s, from, m.start, m.open, m.end);
      FindIterTail(s, from, ms);
      FindIterUnique(s, m.end, ms[1..]);
      assert ms == [m] + ms[1..];
    }
  }

  function DateText(s: string, m: Span): string
    requires m.start + 12 <= |s|
  {
    s[m.start + 2..m.start + 12]
  }

  function TimeText(s: string, m: Span): string
    requires m.start + 17 <= |s|
  {
    s[m.start + 12..m.start + 17]
  }

  function NameText(s: string, m: Span): string
    requires m.open + 1 <= m.end - 1 <= |s|
  {
    s[m.open + 1..m.end - 1]
  }

  /** `_match_to_appointment`: the captured date and time go through
      strptime, the captured name through `str.strip()`. A match converts
      exactly when its date and time name a real moment, which the
      appointment then carries; otherwise the error is tagged with the
      "date time" text that was parsed. */
  function MatchToAppointment(s: string, m: Span): (r: Result<Appointment, ExtractError>)
    requires Shape(s, m.start, m.open, m.end)
    ensures r.Success? <==> IsPyDateTime(Fields(DateText(s, m), TimeText(s, m)))
    ensures r.Success? ==> r.value.date == Fields(DateText(s, m), TimeText(s, m))
    ensures r.Failure? ==> r.error.text == DateText(s, m) + " " + TimeText(s, m)
  {
    var date := DateText(s, m);
    var time := TimeText(s, m);
    match ParseDateTime(date, time)
    case Success(dt) => Success(Appointment(dt, Strip(NameText(s, m))))
    case Failure(reason) => Failure(InvalidDateTime(date + " " + time, reason))
  }

  /** The rest of a conversion: the appointment's name is the stripped
      name group and holds no ')', and a failure carries strptime's
      reason. */
  lemma MatchToAppointmentMeaning(s: string, m: Span)
    requires Shape(s, m.start, m.open, m.end)
    ensures var r := MatchToAppointment(s, m);
            && (r.Success? ==> r.value.therapistName == Strip(NameText(s, m)))
            && (r.Success? ==> ')' !in r.value.therapistName)
            && (r.Failure? ==> ParseDateTime(DateText(s, m), TimeText(s, m)) == Failure(r.error.reason))
  {
    var name := NameText(s, m);
    assert forall k :: 0 <= k < |name| ==> name[k] == s[m.open + 1 + k];
    StripAddsNothing(name, ')');
  }

  /** Each match converted in turn. */
  function Conversions(s: string, ms: seq<Span>): (rs: seq<Result<Appointment, ExtractError>>)
    requires forall i :: 0 <= i < |ms| ==> Shape(s, ms[i].start, ms[i].open, ms[i].end)
    ensures |rs| == |ms|
    ensures forall i :: 0 <= i < |ms| ==> rs[i] == MatchToAppointment(s, ms[i])
  {
    if ms == [] then []
    else [MatchToAppointment(s, ms[0])] + Conversions(s, ms[1..])
  }

  /** The list comprehension over the matches: each converted in turn. */
  function ConvertAll(s: string, ms: seq<Span>): Result<seq<Appointment>, ExtractError>
    requires forall i :: 0 <= i < |ms| ==> Shape(s, ms[i].start, ms[i].open, ms[i].end)
  {
    CollectAll(Conversions(s, ms))
  }

  /** The comprehension raises the first conversion error, with no partial
      list; otherwise it lists every match's appointment, in match order. */
  lemma ConvertAllFirstError(s: string, ms: seq<Span>)
    requires forall i :: 0 <= i < |ms| ==> Shape(s, ms[i].start, ms[i].open, ms[i].end)
    ensures var r := ConvertAll(s, ms);
            && (r.Success? <==> forall i :: 0 <= i < |ms| ==> MatchToAppointment(s, ms[i]).Success?)
            && (r.Success? ==> |r.value| == |ms|)
            && (r.Success? ==> forall i :: 0 <= i < |ms| ==> MatchToAppointment(s, ms[i]) == Success(r.value[i]))
            && (r.Failure? ==> exists i :: 0 <= i < |ms| && MatchToAppointment(s, ms[i]) == Failure(r.error)
                                             && forall j :: 0 <= j < i ==> MatchToAppointment(s, ms[j]).Success?)
  {
  }

  /** `_extract_appointments(text)`: converts the matches `re.finditer`
      yields. It succeeds exactly when every match converts, and then lists
      one appointment per match in match order; otherwise it fails with the
      error of the first match that does not convert. */
  function ExtractAppointments(text: string): (r: Result<seq<Appointment>, ExtractError>)
    ensures var ms := FindIter(text, 0);
            && (r.Success? <==> forall i :: 0 <= i < |ms| ==> MatchToAppointment(text, ms[i]).Success?)
            && (r.Success? ==> |r.value| == |ms|)
            && (r.Success? ==> forall i :: 0 <= i < |ms| ==> MatchToAppointment(text, ms[i]) == Success(r.value[i]))
            && (r.Failure? ==> exists i :: 0 <= i < |ms| && MatchToAppointment(text, ms[i]) == Failure(r.error)
                                            && forall j :: 0 <= j < i ==> MatchToAppointment(text, ms[j]).Success?)
  {
    var ms := FindIter(text, 0);
    ConvertAllFirstError(text, ms);
    ConvertAll(text, ms)
  }

  /** Spans each ending after they start, each starting where or after the
      previous one ends, are ordered pairwise. */
  lemma {:induction false} ChainOrdered(ms: seq<Span>, i: int, j: int)
    requires forall k :: 0 <= k < |ms| ==> ms[k].start < ms[k].end
    requires forall k, l :: 0 <= k && l == k + 1 && l < |ms| ==> ms[k].end <= ms[l].start
    requires 0 <= i < j < |ms|
    ensures ms[i].end <= ms[j].start
    decreases j - i
  {
    if i + 1 < j {
      ChainOrdered(ms, i + 1, j);
      assert ms[i].end <= ms[i + 1].start;
    }
  }

  /** Matches never overlap and come in the order they occur in the text. */
  lemma FindIterOrdered(s: string, from: nat)
    ensures var ms := FindIter(s, from);
            forall i, j :: 0 <= i < j < |ms| ==> ms[i].start < ms[i].end <= ms[j].start
  {
    var ms := FindIter(s, from);
    FindIterIsLeftmost(s, from);
    forall i, j | 0 <= i < j < |ms|
      ensures ms[i].start < ms[i].end <= ms[j].start
    {
      ChainOrdered(ms, i, j);
    }
  }

  /** Where a match starts at `p` and none starts in `from..p`, finditer
      yields that match and resumes at its end. */
  lemma FindIterStep(s: string, from: nat, p: nat, q: nat, e: nat)
    requires from <= p && Shape(s, p, q, e) && NoMatchStartsIn(s, from, p)
    ensures FindIter(s, from) == [Span(p, q, e)] + FindIter(s, e)
  {
    var found := Search(s, from);
    assert found.Some?;
    var m := found.value;
    assert m.start == p;
    ShapeDeterminedByStart(s, p, q, e, m.open, m.end);
  }

  /** With no match left to start, finditer yields nothing more. */
  lemma FindIterDone(s: string, from: nat)
    requires NoMatchStartsIn(s, from, |s|)
    ensures FindIter(s, from) == []
  {
  }

  /** A match needs two letters followed by a digit where it starts. */
  predicate CouldStartAt(s: string, p: int) {
    0 <= p && p + 2 < |s| && IsAsciiLetter(s[p]) && IsAsciiLetter(s[p + 1]) && IsAsciiDigit(s[p + 2])
  }

  /** No match starts where two letters and a digit do not meet, nor
      anywhere when there is no '(' in the text. */
  lemma NoMatchWithoutStart(s: string, lo: int, hi: int)
    requires (forall p :: lo <= p < hi ==> !CouldStartAt(s, p)) || '(' !in s
    ensures NoMatchStartsIn(s, lo, hi)
  {
    forall p, q, e | lo <= p < hi
      ensures !Shape(s, p, q, e)
    {
      if Shape(s, p, q, e) {
        if '(' in s {
          assert s[p + 2..p + 12][0] == s[p + 2];
          assert CouldStartAt(s, p);
        }
      }
    }
  }

  /** Text in which nothing matches, the empty text among it, yields an
      empty list and no error. */
  lemma ExtractWithoutMatch(text: string)
    requires NoMatchStartsIn(text, 0, |text|)
    ensures ExtractAppointments(text) == Success([])
  {
    FindIterDone(text, 0);
  }

  /** A text without a '(' holds no appointment. */
  lemma ExtractWithoutParen(text: string)
    requires '(' !in text
    ensures ExtractAppointments(text) == Success([])
  {
    NoMatchWithoutStart(text, 0, |text|);
    ExtractWithoutMatch(text);
  }

  /** Every extracted appointment is a real Python date-time with the digits
      of its match, and its name is the stripped name group, which holds no
      ')'; the appointments follow the matches left to right. */
  lemma ExtractedAppointments(text: string)
    requires ExtractAppointments(text).Success?
    ensures var apps := ExtractAppointments(text).value;
            var ms := FindIter(text, 0);
            && |apps| == |ms|
            && (forall i :: 0 <= i < |apps| ==>
                  && IsPyDateTime(apps[i].date)
                  && FormatDate(apps[i].date) == DateText(text, ms[i])
                  && FormatTime(apps[i].date) == TimeText(text, ms[i])
                  && apps[i].therapistName == Strip(NameText(text, ms[i]))
                  && ')' !in apps[i].therapistName)
            && (forall i, j :: 0 <= i < j < |ms| ==> ms[i].end <= ms[j].start)
  {
    var apps := ExtractAppointments(text).value;
    var ms := FindIter(text, 0);
    FindIterOrdered(text, 0);
    forall i | 0 <= i < |apps|
      ensures IsPyDateTime(apps[i].date)
      ensures FormatDate(apps[i].date) == DateText(text, ms[i])
      ensures FormatTime(apps[i].date) == TimeText(text, ms[i])
      ensures apps[i].therapistName == Strip(NameText(text, ms[i]))
      ensures ')' !in apps[i].therapistName
    {
      var date, time := DateText(text, ms[i]), TimeText(text, ms[i]);
      assert MatchToAppointment(text, ms[i]) == Success(apps[i]);
      MatchToAppointmentMeaning(text, ms[i]);
      assert apps[i].date == Fields(date, time);
      FormatOfFields(date, time);
    }
  }

  /** Moves every span `d` positions to the right. */
  function Shifted(ms: seq<Span>, d: nat): (r: seq<Span>)
    ensures |r| == |ms|
    ensures forall i :: 0 <= i < |ms| ==> r[i] == Span(d + ms[i].start, d + ms[i].open, d + ms[i].end)
  {
    seq(|ms|, i requires 0 <= i < |ms| => Span(d + ms[i].start, d + ms[i].open, d + ms[i].end))
  }

  /** The pattern reads nothing before its start: a match in `b` is a match
      in `a + b`, `|a|` positions later, and conversely. */
  lemma ShapeInSuffix(a: string, b: string, p: int, q: int, e: int)
    requires 0 <= p
    ensures Shape(a + b, |a| + p, |a| + q, |a| + e) <==> Shape(b, p, q, e)
  {
    var s := a + b;
    if p + 17 < q && q + 2 < e && e <= |b| {
      assert s[|a| + p + 2..|a| + p + 12] == b[p + 2..p + 12];
      assert s[|a| + p + 12..|a| + p + 17] == b[p + 12..p + 17];
      assert forall k :: 0 <= k < |b| ==> s[|a| + k] == b[k];
    }
  }

  /** Nor anything after its end: a match in `a` is a match in `a + b`. */
  lemma ShapeInPrefix(a: string, b: string, p: int, q: int, e: int)
    requires Shape(a, p, q, e)
    ensures Shape(a + b, p, q, e)
  {
    var s := a + b;
    assert s[p + 2..p + 12] == a[p + 2..p + 12];
    assert s[p + 12..p + 17] == a[p + 12..p + 17];
  }

  lemma NoMatchInSuffix(a: string, b: string, lo: nat, hi: int)
    requires NoMatchStartsIn(b, lo, hi)
    ensures NoMatchStartsIn(a + b, |a| + lo, |a| + hi)
  {
    forall p, q, e | |a| + lo <= p < |a| + hi
      ensures !Shape(a + b, p, q, e)
    {
      ShapeInSuffix(a, b, p - |a|, q - |a|, e - |a|);
    }
  }

  /** Without a match starting in `from..to`, finditer from `from` is
      finditer from `to`. */
  lemma FindIterSkip(s: string, from: nat, to: nat)
    requires from <= to && NoMatchStartsIn(s, from, to)
    ensures FindIter(s, from) == FindIter(s, to)
  {
    var ms := FindIter(s, to);
    FindIterIsLeftmost(s, to);
    assert IsFindIter(s, from, ms);
    FindIterUnique(s, from, ms);
  }

  lemma ShiftedMatches(a: string, b: string, ms: seq<Span>)
    requires forall i :: 0 <= i < |ms| ==> Shape(b, ms[i].start, ms[i].open, ms[i].end)
    ensures var sh := Shifted(ms, |a|);
            forall i :: 0 <= i < |sh| ==> Shape(a + b, sh[i].start, sh[i].open, sh[i].end)
  {
    var sh := Shifted(ms, |a|);
    forall i | 0 <= i < |sh|
      ensures Shape(a + b, sh[i].start, sh[i].open, sh[i].end)
    {
      ShapeInSuffix(a, b, ms[i].start, ms[i].open, ms[i].end);
    }
  }

  lemma ShiftedGaps(a: string, b: string, ms: seq<Span>)
    requires forall i, j :: 0 <= i && j == i + 1 && j < |ms| ==> NoMatchStartsIn(b, ms[i].end, ms[j].start)
    ensures var sh := Shifted(ms, |a|);
            forall i, j :: 0 <= i && j == i + 1 && j < |sh| ==> NoMatchStartsIn(a + b, sh[i].end, sh[j].start)
  {
    var sh := Shifted(ms, |a|);
    forall i, j | 0 <= i && j == i + 1 && j < |sh|
      ensures NoMatchStartsIn(a + b, sh[i].end, sh[j].start)
    {
      NoMatchInSuffix(a, b, ms[i].end, ms[j].start);
    }
  }

  lemma ShiftedFirst(a: string, b: string, ms: seq<Span>)
    requires |ms| > 0 ==> NoMatchStartsIn(b, 0, ms[0].start)
    ensures var sh := Shifted(ms, |a|);
            |sh| > 0 ==> |a| <= sh[0].start && NoMatchStartsIn(a + b, |a|, sh[0].start)
  {
    if |ms| > 0 {
      NoMatchInSuffix(a, b, 0, ms[0].start);
    }
  }

  lemma ShiftedLast(a: string, b: string, ms: seq<Span>)
    requires NoMatchStartsIn(b, if |ms| == 0 then 0 else ms[|ms| - 1].end, |b|)
    ensures var sh := Shifted(ms, |a|);
            NoMatchStartsIn(a + b, if |sh| == 0 then |a| else sh[|sh| - 1].end, |a + b|)
  {
    NoMatchInSuffix(a, b, if |ms| == 0 then 0 else ms[|ms| - 1].end, |b|);
  }

  lemma ShiftedOrder(ms: seq<Span>, d: nat)
    requires forall i, j :: 0 <= i && j == i + 1 && j < |ms| ==> ms[i].end <= ms[j].start
    ensures var sh := Shifted(ms, d);
            forall i, j :: 0 <= i && j == i + 1 && j < |sh| ==> sh[i].end <= sh[j].start
  {
  }

  /** The matches of `b`, shifted, are what finditer must yield in `a + b`
      from the end of `a`. */
  lemma IsFindIterShifted(a: string, b: string, ms: seq<Span>)
    requires IsFindIter(b, 0, ms)
    ensures IsFindIter(a + b, |a|, Shifted(ms, |a|))
  {
    ShiftedMatches(a, b, ms);
    ShiftedFirst(a, b, ms);
    ShiftedOrder(ms, |a|);
    ShiftedGaps(a, b, ms);
    ShiftedLast(a, b, ms);
  }

  /** Finditer in `a + b` from the end of `a` finds the matches of `b`, shifted. */
  lemma FindIterInSuffix(a: string, b: string)
    ensures FindIter(a + b, |a|) == Shifted(FindIter(b, 0), |a|)
  {
    FindIterIsLeftmost(b, 0);
    IsFindIterShifted(a, b, FindIter(b, 0));
    FindIterUnique(a + b, |a|, Shifted(FindIter(b, 0), |a|));
  }

  /** A match converts the same wherever the text around it is. */
  lemma ConvertInSuffix(a: string, b: string, m: Span, x: Span)
    requires Shape(b, m.start, m.open, m.end)
    requires x == Span(|a| + m.start, |a| + m.open, |a| + m.end)
    ensures Shape(a + b, x.start, x.open, x.end)
    ensures MatchToAppointment(a + b, x) == MatchToAppointment(b, m)
  {
    ShapeInSuffix(a, b, m.start, m.open, m.end);
    TextsInSuffix(a, b, m, x);
  }

  lemma TextsInSuffix(a: string, b: string, m: Span, x: Span)
    requires m.start + 17 <= |b| && m.open + 1 <= m.end - 1 <= |b|
    requires x == Span(|a| + m.start, |a| + m.open, |a| + m.end)
    ensures DateText(a + b, x) == DateText(b, m)
    ensures TimeText(a + b, x) == TimeText(b, m)
    ensures NameText(a + b, x) == NameText(b, m)
  {
    SliceOfSuffix(a, b, m.start + 2, m.start + 12);
    SliceOfSuffix(a, b, m.start + 12, m.start + 17);
    SliceOfSuffix(a, b, m.open + 1, m.end - 1);
  }

  lemma ConvertInPrefix(a: string, b: string, m: Span)
    requires Shape(a, m.start, m.open, m.end)
    ensures Shape(a + b, m.start, m.open, m.end)
    ensures MatchToAppointment(a + b, m) == MatchToAppointment(a, m)
  {
    ShapeInPrefix(a, b, m.start, m.open, m.end);
    TextsInPrefix(a, b, m);
  }

  lemma TextsInPrefix(a: string, b: string, m: Span)
    requires m.start + 17 <= |a| && m.open + 1 <= m.end - 1 <= |a|
    ensures DateText(a + b, m) == DateText(a, m)
    ensures TimeText(a + b, m) == TimeText(a, m)
    ensures NameText(a + b, m) == NameText(a, m)
  {
    SliceOfPrefix(a, b, m.start + 2, m.start + 12);
    SliceOfPrefix(a, b, m.start + 12, m.start + 17);
    SliceOfPrefix(a, b, m.open + 1, m.end - 1);
  }

  lemma ConversionsInSuffix(a: string, b: string, ms: seq<Span>)
    requires forall i :: 0 <= i < |ms| ==> Shape(b, ms[i].start, ms[i].open, ms[i].end)
    ensures var sh := Shifted(ms, |a|);
            && (forall i :: 0 <= i < |sh| ==> Shape(a + b, sh[i].start, sh[i].open, sh[i].end))
            && Conversions(a + b, sh) == Conversions(b, ms)
  {
    var sh := Shifted(ms, |a|);
    ShiftedMatches(a, b, ms);
    var left := Conversions(a + b, sh);
    var right := Conversions(b, ms);
    forall i | 0 <= i < |sh|
      ensures left[i] == right[i]
    {
      ConvertShiftedAt(a, b, ms, i);
    }
    assert |left| == |right|;
  }

  lemma ConvertShiftedAt(a: string, b: string, ms: seq<Span>, i: nat)
    requires forall i :: 0 <= i < |ms| ==> Shape(b, ms[i].start, ms[i].open, ms[i].end)
    requires i < |ms|
    ensures var sh := Shifted(ms, |a|);
            && Shape(a + b, sh[i].start, sh[i].open, sh[i].end)
            && MatchToAppointment(a + b, sh[i]) == MatchToAppointment(b, ms[i])
  {
    ConvertInSuffix(a, b, ms[i], Shifted(ms, |a|)[i]);
  }

  lemma ConvertAllInSuffix(a: string, b: string, ms: seq<Span>)
    requires forall i :: 0 <= i < |ms| ==> Shape(b, ms[i].start, ms[i].open, ms[i].end)
    ensures var sh := Shifted(ms, |a|);
            && (forall i :: 0 <= i < |sh| ==> Shape(a + b, sh[i].start, sh[i].open, sh[i].end))
            && ConvertAll(a + b, sh) == ConvertAll(b, ms)
  {
    ConversionsInSuffix(a, b, ms);
  }

  /** Text in which no match can start, whatever follows it: nowhere two
      letters meet a digit, and it does not end in a letter. */
  predicate Inert(noise: string) {
    && (forall p :: 0 <= p < |noise| - 2 ==> !CouldStartAt(noise, p))
    && (noise == [] || !IsAsciiLetter(noise[|noise| - 1]))
  }

  lemma InertConcat(a: string, b: string)
    requires Inert(a) && Inert(b)
    ensures Inert(a + b)
  {
    var s := a + b;
    forall p | 0 <= p < |s| - 2
      ensures !CouldStartAt(s, p)
    {
      if p + 2 < |a| {
        assert !CouldStartAt(a, p);
      } else if p >= |a| {
        assert !CouldStartAt(b, p - |a|);
      } else if p + 1 < |a| {
        assert s[p + 1] == a[|a| - 1];
      } else {
        assert s[p] == a[|a| - 1];
      }
    }
    if b == [] {
      assert s == a;
    }
  }

  lemma InertHasNoMatch(s: string)
    requires Inert(s)
    ensures NoMatchStartsIn(s, 0, |s|)
  {
    NoMatchWithoutStart(s, 0, |s|);
  }

  /** The first seventeen characters of a match, one by one: two letters,
      `DD.MM.YYYY`, then `HH:MM`. */
  lemma ShapeHead(s: string, p: int, q: int, e: int)
    requires Shape(s, p, q, e)
    ensures IsAsciiLetter(s[p]) && IsAsciiLetter(s[p + 1])
    ensures IsAsciiDigit(s[p + 2]) && IsAsciiDigit(s[p + 3]) && s[p + 4] == '.'
    ensures IsAsciiDigit(s[p + 5]) && IsAsciiDigit(s[p + 6]) && s[p + 7] == '.'
    ensures forall k :: p + 8 <= k < p + 12 ==> IsAsciiDigit(s[k])
    ensures IsAsciiDigit(s[p + 12]) && IsAsciiDigit(s[p + 13]) && s[p + 14] == ':'
    ensures IsAsciiDigit(s[p + 15]) && IsAsciiDigit(s[p + 16])
  {
    var date := s[p + 2..p + 12];
    var time := s[p + 12..p + 17];
    assert date[0..2][0] == s[p + 2] && date[0..2][1] == s[p + 3];
    assert date[3] == s[p + 5] && date[4] == s[p + 6];
    assert date[3..5][0] == date[3] && date[3..5][1] == date[4];
    forall k | p + 8 <= k < p + 12
      ensures IsAsciiDigit(s[k])
    {
      assert date[k - p - 2] == s[k];
      assert date[6..10][k - p - 8] == date[k - p - 2];
    }
    assert time[0..2][0] == s[p + 12] && time[0..2][1] == s[p + 13];
    assert time[3] == s[p + 15] && time[4] == s[p + 16];
    assert time[3..5][0] == time[3] && time[3..5][1] == time[4];
  }

  /** Text in front in which no match can start changes nothing: "vom
      08.02.2023" is ignored. */
  lemma ExtractAfterNoise(noise: string, rest: string)
    requires Inert(noise)
    ensures ExtractAppointments(noise + rest) == ExtractAppointments(rest)
  {
    var s := noise + rest;
    forall p | 0 <= p < |noise|
      ensures !CouldStartAt(s, p)
    {
      if p < |noise| - 2 {
        assert !CouldStartAt(noise, p);
        assert s[p] == noise[p] && s[p + 1] == noise[p + 1] && s[p + 2] == noise[p + 2];
      } else {
        assert s[|noise| - 1] == noise[|noise| - 1];
      }
    }
    NoMatchWithoutStart(s, 0, |noise|);
    FindIterSkip(s, 0, |noise|);
    FindIterInSuffix(noise, rest);
    FindIterIsLeftmost(rest, 0);
    ConvertAllInSuffix(noise, rest, FindIter(rest, 0));
  }

  /** A text that starts with a complete match yields that match's
      appointment first, then whatever the rest of the text yields. */
  lemma ExtractAfterMatch(line: string, rest: string, q: nat)
    requires Shape(line, 0, q, |line|)
    ensures ExtractAppointments(line + rest)
            == Cons(MatchToAppointment(line, Span(0, q, |line|)), ExtractAppointments(rest))
  {
    var s := line + rest;
    var m := Span(0, q, |line|);
    var tail := FindIter(rest, 0);
    var sh := Shifted(tail, |line|);
    MatchesAfterMatch(line, rest, q);
    ConversionsAfterMatch(line, rest, q);
    var first := MatchToAppointment(line, m);
    assert Conversions(s, [m] + sh) == [first] + Conversions(rest, tail);
    CollectAllCons(first, Conversions(rest, tail));
    assert ConvertAll(s, [m] + sh) == Cons(first, ConvertAll(rest, tail));
  }

  /** The matches of a text that starts with a complete match. */
  lemma MatchesAfterMatch(line: string, rest: string, q: nat)
    requires Shape(line, 0, q, |line|)
    ensures FindIter(line + rest, 0) == [Span(0, q, |line|)] + Shifted(FindIter(rest, 0), |line|)
  {
    ShapeInPrefix(line, rest, 0, q, |line|);
    FindIterStep(line + rest, 0, 0, q, |line|);
    FindIterInSuffix(line, rest);
  }

  lemma ConversionsAfterMatch(line: string, rest: string, q: nat)
    requires Shape(line, 0, q, |line|)
    ensures var tail := FindIter(rest, 0);
            var ms := [Span(0, q, |line|)] + Shifted(tail, |line|);
            && (forall i :: 0 <= i < |ms| ==> Shape(line + rest, ms[i].start, ms[i].open, ms[i].end))
            && Conversions(line + rest, ms)
               == [MatchToAppointment(line, Span(0, q, |line|))] + Conversions(rest, tail)
  {
    var s := line + rest;
    var m := Span(0, q, |line|);
    var tail := FindIter(rest, 0);
    var sh := Shifted(tail, |line|);
    ConvertInPrefix(line, rest, m);
    ConversionsInSuffix(line, rest, tail);
    ConversionsCons(s, m, sh);
  }

  lemma ConsShaped(s: string, m: Span, ms: seq<Span>)
    requires Shape(s, m.start, m.open, m.end)
    requires forall i :: 0 <= i < |ms| ==> Shape(s, ms[i].start, ms[i].open, ms[i].end)
    ensures var all := [m] + ms;
            forall i :: 0 <= i < |all| ==> Shape(s, all[i].start, all[i].open, all[i].end)
  {
    var all := [m] + ms;
    forall i | 0 <= i < |all|
      ensures Shape(s, all[i].start, all[i].open, all[i].end)
    {
      if i > 0 {
        assert all[i] == ms[i - 1];
      }
    }
  }

  lemma ConversionsCons(s: string, m: Span, ms: seq<Span>)
    requires Shape(s, m.start, m.open, m.end)
    requires forall i :: 0 <= i < |ms| ==> Shape(s, ms[i].start, ms[i].open, ms[i].end)
    ensures var all := [m] + ms;
            && (forall i :: 0 <= i < |all| ==> Shape(s, all[i].start, all[i].open, all[i].end))
            && Conversions(s, all) == [MatchToAppointment(s, m)] + Conversions(s, ms)
  {
    var all := [m] + ms;
    ConsShaped(s, m, ms);
    assert all[0] == m;
    assert all[1..] == ms;
  }
}

=== FILE: extractor_examples.dfy ===
/** The extractor on the concrete inputs of its test suite. Each text is
    assembled from the fields of the PDF's appointment lines, so that the
    general lemmas of `Extractor` apply piece by piece. */
module ExtractorExamples {
  import opened Wrappers
  import opened Text
  import opened Calendar
  import opened Strptime
  import opened Extractor

  /** One appointment line as the PDF text renders it: weekday abbreviation,
      date and time glued together, the treatment, then the therapist in
      parentheses. */
  function Line(weekday: string, date: string, time: string, kind: string, name: string): string {
    weekday + date + time + kind + "(" + name + ")"
  }

  predicate WellFormedLine(weekday: string, date: string, time: string, kind: string, name: string) {
    && |weekday| == 2 && IsAsciiLetter(weekday[0]) && IsAsciiLetter(weekday[1])
    && DateLayout(date) && TimeLayout(time)
    && kind != [] && '(' !in kind
    && name != [] && ')' !in name
  }

  /** Such a line is one match of the pattern, from its first character to
      its last, and the groups are its date, time and name fields. */
  lemma LineMatches(weekday: string, date: string, time: string, kind: string, name: string)
    requires WellFormedLine(weekday, date, time, kind, name)
    ensures var s := Line(weekday, date, time, kind, name);
            var m := Span(0, 17 + |kind|, |s|);
            && Shape(s, m.start, m.open, m.end)
            && DateText(s, m) == date && TimeText(s, m) == time && NameText(s, m) == name
  {
    var s := Line(weekday, date, time, kind, name);
    var q := 17 + |kind|;
    assert |s| == q + |name| + 2;
    assert s[0] == weekday[0] && s[1] == weekday[1];
    assert s[2..12] == date;
    assert s[12..17] == time;
    forall k | 17 <= k < q
      ensures s[k] != '('
    {
      assert s[k] == kind[k - 17];
    }
    assert s[q] == '(';
    forall k | q < k < |s| - 1
      ensures s[k] != ')'
    {
      assert s[k] == name[k - q - 1];
    }
    assert s[|s| - 1] == ')';
    assert s[q + 1..|s| - 1] == name;
  }

  /** A well-formed line in front of any text contributes the conversion of
      its own fields, ahead of whatever the text yields. */
  lemma ExtractLineThen(weekday: string, date: string, time: string, kind: string, name: string,
                        rest: string)
    requires WellFormedLine(weekday, date, time, kind, name)
    ensures var s := Line(weekday, date, time, kind, name);
            var m := Span(0, 17 + |kind|, |s|);
            && Shape(s, m.start, m.open, m.end)
            && ExtractAppointments(s + rest) == Cons(MatchToAppointment(s, m), ExtractAppointments(rest))
  {
    var s := Line(weekday, date, time, kind, name);
    LineMatches(weekday, date, time, kind, name);
    ExtractAfterMatch(s, rest, 17 + |kind|);
  }

  /** The line converts to the moment strptime reads and the stripped name. */
  lemma LineConverts(weekday: string, date: string, time: string, kind: string, name: string,
                     dt: DateTime)
    requires WellFormedLine(weekday, date, time, kind, name)
    requires ParseDateTime(date, time) == Success(dt)
    ensures var s := Line(weekday, date, time, kind, name);
            var m := Span(0, 17 + |kind|, |s|);
            && Shape(s, m.start, m.open, m.end)
            && MatchToAppointment(s, m) == Success(Appointment(dt, Strip(name)))
  {
    LineMatches(weekday, date, time, kind, name);
  }

  /** The line's conversion fails with strptime's reason, tagged with the
      "date time" text that was parsed. */
  lemma LineFails(weekday: string, date: string, time: string, kind: string, name: string,
                  reason: DateTimeError)
    requires WellFormedLine(weekday, date, time, kind, name)
    requires ParseDateTime(date, time) == Failure(reason)
    ensures var s := Line(weekday, date, time, kind, name);
            var m := Span(0, 17 + |kind|, |s|);
            && Shape(s, m.start, m.open, m.end)
            && MatchToAppointment(s, m) == Failure(InvalidDateTime(date + " " + time, reason))
  {
    LineMatches(weekday, date, time, kind, name);
  }

  /** No two letters meet a digit at or after position `i`, checked one
      position at a time so that it can be worked out on a written text. */
  predicate NoStartFrom(s: string, i: nat)
    decreases |s| - i
  {
    i + 2 >= |s| || (!CouldStartAt(s, i) && NoStartFrom(s, i + 1))
  }

  lemma {:induction false} NoStartFromMeans(s: string, i: nat)
    requires NoStartFrom(s, i)
    ensures forall p :: i <= p < |s| - 2 ==> !CouldStartAt(s, p)
    decreases |s| - i
  {
    if i + 2 < |s| {
      NoStartFromMeans(s, i + 1);
    }
  }

  /** A text the scan finds no start in, and that does not end in a
      letter, is inert. */
  lemma InertByScan(s: string)
    requires NoStartFrom(s, 0)
    requires s == [] || !IsAsciiLetter(s[|s| - 1])
    ensures Inert(s)
  {
    NoStartFromMeans(s, 0);
  }

  /** A word may end in a letter when what follows starts with neither a
      digit nor a letter-digit pair. */
  lemma InertAfterWord(word: string, b: string)
    requires NoStartFrom(word, 0)
    requires Inert(b) && |b| >= 2 && !IsAsciiDigit(b[0]) && !IsAsciiDigit(b[1])
    ensures Inert(word + b)
  {
    NoStartFromMeans(word, 0);
    var s := word + b;
    forall p | 0 <= p < |s| - 2
      ensures !CouldStartAt(s, p)
    {
      if p + 2 < |word| {
        assert !CouldStartAt(word, p);
      } else if p >= |word| {
        assert !CouldStartAt(b, p - |word|);
      } else if p + 1 < |word| {
        assert s[p + 2] == b[0];
      } else {
        assert s[p + 2] == b[1];
      }
    }
  }

  lemma InertThree(a: string, b: string, c: string)
    requires Inert(a) && Inert(b) && Inert(c)
    ensures Inert(a + b + c)
  {
    InertConcat(a, b);
    InertConcat(a + b, c);
  }

  /** `c` does not occur at or after position `i`. */
  predicate LacksFrom(s: string, c: char, i: nat)
    decreases |s| - i
  {
    i >= |s| || (s[i] != c && LacksFrom(s, c, i + 1))
  }

  lemma {:induction false} LacksFromMeans(s: string, c: char, i: nat)
    requires LacksFrom(s, c, i)
    ensures forall k :: i <= k < |s| ==> s[k] != c
    decreases |s| - i
  {
    if i < |s| {
      LacksFromMeans(s, c, i + 1);
    }
  }

  lemma LacksByScan(s: string, c: char)
    requires LacksFrom(s, c, 0)
    ensures c !in s
  {
    LacksFromMeans(s, c, 0);
  }

  /** The test texts are written as sums of short pieces, each of which the
      lemmas above check on its own. */

  /** The indentation between lines of the test texts. */
  const Indent: string := "\n        "

  lemma IndentIsInert()
    ensures Inert(Indent)
  {
    InertByScan(Indent);
  }

  lemma EmptyText()
    ensures ExtractAppointments("") == Success([])
  {
    NoMatchWithoutStart("", 0, 0);
    ExtractWithoutMatch("");
  }

  /** "This is some random text without any appointments." */
  const RandomText: string := "This is " + "some " + "random " + "text " + "without " + "any " + "appointments."

  lemma TextWithoutAppointments()
    ensures ExtractAppointments(RandomText) == Success([])
  {
    ExtractWithoutParen(RandomText);
  }

  /** A line of a test text: the moment is printed in the date and time
      fields. */
  datatype Row = Row(weekday: string, moment: DateTime, kind: string, name: string)

  predicate GoodRow(r: Row) {
    && |r.weekday| == 2 && IsAsciiLetter(r.weekday[0]) && IsAsciiLetter(r.weekday[1])
    && IsPyDateTime(r.moment)
    && r.kind != [] && '(' !in r.kind
    && r.name != [] && ')' !in r.name
    && !IsStripSpace(r.name[0]) && !IsStripSpace(r.name[|r.name| - 1])
  }

  function RowLine(r: Row): string
    requires IsPyDateTime(r.moment)
  {
    Line(r.weekday, FormatDate(r.moment), FormatTime(r.moment), r.kind, r.name)
  }

  /** A triple-quoted test text: each line on its own indented line, and an
      indented line before the closing quotes. */
  function Indented(rows: seq<Row>): string
    requires forall i :: 0 <= i < |rows| ==> GoodRow(rows[i])
  {
    if rows == [] then Indent
    else
      assert GoodRow(rows[0]);
      Indent + RowLine(rows[0]) + Indented(rows[1..])
  }

  /** What the rows should convert to, in order. */
  function Expected(rows: seq<Row>): seq<Appointment> {
    if rows == [] then [] else [Appointment(rows[0].moment, rows[0].name)] + Expected(rows[1..])
  }

  lemma ExpectedCons(r: Row, rows: seq<Row>)
    ensures Expected([r] + rows) == [Appointment(r.moment, r.name)] + Expected(rows)
  {
    assert ([r] + rows)[1..] == rows;
  }

  /** A test text of good rows gives their appointments in the order they
      are written. */
  lemma ExtractIndentedText(rows: seq<Row>)
    requires forall i :: 0 <= i < |rows| ==> GoodRow(rows[i])
    ensures ExtractAppointments(Indented(rows)) == Success(Expected(rows))
  {
    EmptyText();
    AppendNothing(Indented(rows));
    ExtractIndented(rows, []);
  }

  /** An indented good row in front of any text contributes its appointment
      ahead of whatever the text yields. */
  lemma ExtractRowThen(r: Row, rest: string)
    requires GoodRow(r)
    ensures ExtractAppointments(Indent + RowLine(r) + rest)
            == Cons(Success(Appointment(r.moment, r.name)), ExtractAppointments(rest))
  {
    var date, time := FormatDate(r.moment), FormatTime(r.moment);
    var line := RowLine(r);
    StripUnpadded(r.name);
    ParseFormatRoundTrip(r.moment);
    IndentIsInert();
    assert Indent + line + rest == Indent + (line + rest);
    ExtractAfterNoise(Indent, line + rest);
    ExtractLineThen(r.weekday, date, time, r.kind, r.name, rest);
    LineConverts(r.weekday, date, time, r.kind, r.name, r.moment);
  }

  /** Good rows, in a text followed by anything appointment-free, give their
      appointments in the order they are written. */
  lemma {:induction false} ExtractIndented(rows: seq<Row>, tail: string)
    requires forall i :: 0 <= i < |rows| ==> GoodRow(rows[i])
    requires ExtractAppointments(tail) == Success([])
    ensures ExtractAppointments(Indented(rows) + tail) == Success(Expected(rows))
  {
    if rows == [] {
      IndentIsInert();
      ExtractAfterNoise(Indent, tail);
    } else {
      var r := rows[0];
      var rest := Indented(rows[1..]) + tail;
      assert GoodRow(r);
      assert Indented(rows) == Indent + RowLine(r) + Indented(rows[1..]);
      SeqAssoc(Indent + RowLine(r), Indented(rows[1..]), tail);
      ExtractRowThen(r, rest);
      ExtractIndented(rows[1..], tail);
    }
  }

  const Katja1640: Row := Row("Di", DateTime(2026, 1, 27, 16, 40), "KG ZNS ", "Katja")
  const Katja1710: Row := Row("Di", DateTime(2026, 1, 27, 17, 10), "KG ZNS ", "Katja")
  const Mike1530: Row := Row("Do", DateTime(2026, 1, 29, 15, 30), "KG ZNS ", "Mike")
  const Mike1600: Row := Row("Do", DateTime(2026, 1, 29, 16, 0), "KG ZNS ", "Mike")
  const KatjaFebruary: Row := Row("Di", DateTime(2026, 2, 3, 16, 40), "KG ZNS ", "Katja")
  const MikeMarch: Row := Row("Di", DateTime(2026, 3, 3, 16, 40), "KG ZNS ", "Mike")
  const ThomasApril: Row := Row("Di", DateTime(2026, 4, 7, 16, 40), "KG ZNS ", "Thomas")

  /** The lines of the test with several appointments. */
  const January: seq<Row> := [Katja1640, Katja1710, Mike1530, Mike1600]

  lemma GoodJanuaryRows()
    ensures forall i :: 0 <= i < |January| ==> GoodRow(January[i])
  {
    assert GoodRow(Katja1640) && GoodRow(Katja1710) && GoodRow(Mike1530) && GoodRow(Mike1600);
  }

  lemma GoodLaterRows()
    ensures GoodRow(KatjaFebruary) && GoodRow(MikeMarch) && GoodRow(ThomasApril)
  {
  }

  lemma JanuaryExpected()
    ensures Expected(January)
            == [Appointment(DateTime(2026, 1, 27, 16, 40), "Katja"),
                Appointment(DateTime(2026, 1, 27, 17, 10), "Katja"),
                Appointment(DateTime(2026, 1, 29, 15, 30), "Mike"),
                Appointment(DateTime(2026, 1, 29, 16, 0), "Mike")]
  {
    ExpectedCons(Mike1600, []);
    ExpectedCons(Mike1530, [Mike1600]);
    ExpectedCons(Katja1710, [Mike1530, Mike1600]);
    ExpectedCons(Katja1640, [Katja1710, Mike1530, Mike1600]);
  }

  /** Four lines, four appointments, in the order written. */
  lemma MultipleAppointments()
    ensures (GoodJanuaryRows(); ExtractAppointments(Indented(January)))
            == Success([Appointment(DateTime(2026, 1, 27, 16, 40), "Katja"),
                        Appointment(DateTime(2026, 1, 27, 17, 10), "Katja"),
                        Appointment(DateTime(2026, 1, 29, 15, 30), "Mike"),
                        Appointment(DateTime(2026, 1, 29, 16, 0), "Mike")])
  {
    GoodJanuaryRows();
    ExtractIndentedText(January);
    JanuaryExpected();
  }

  /** A text that is a single good line gives exactly its appointment. */
  lemma ExtractSingleLine(weekday: string, date: string, time: string, kind: string, name: string,
                          dt: DateTime)
    requires WellFormedLine(weekday, date, time, kind, name)
    requires ParseDateTime(date, time) == Success(dt)
    ensures ExtractAppointments(Line(weekday, date, time, kind, name))
            == Success([Appointment(dt, Strip(name))])
  {
    var s := Line(weekday, date, time, kind, name);
    var app := Appointment(dt, Strip(name));
    assert s + "" == s;
    ExtractLineThen(weekday, date, time, kind, name, "");
    LineConverts(weekday, date, time, kind, name, dt);
    EmptyText();
    var ok: Result<Appointment, ExtractError> := Success(app);
    var none: Result<seq<Appointment>, ExtractError> := Success([]);
    assert Cons(ok, none) == Success([app]) by {
      assert [app] + [] == [app];
    }
  }

  lemma January27Parses()
    ensures ParseDateTime("27.01.2026", "16:40") == Success(DateTime(2026, 1, 27, 16, 40))
  {
    FieldsByDigits("27.01.2026", "16:40");
  }

  lemma January27Fields()
    ensures IsAsciiLetter("Di"[0]) && IsAsciiLetter("Di"[1])
    ensures DateLayout("27.01.2026") && TimeLayout("16:40")
    ensures '(' !in "KG ZNS "
  {
    LacksByScan("KG ZNS ", '(');
  }

  /** "Di27.01.202616:40KG ZNS (" + name + ")" is one appointment on the
      27th of January 2026 at 16:40 with the stripped name. */
  lemma January27Line(name: string, stripped: string)
    requires name != [] && ')' !in name
    requires Strip(name) == stripped
    ensures ExtractAppointments(Line("Di", "27.01.2026", "16:40", "KG ZNS ", name))
            == Success([Appointment(DateTime(2026, 1, 27, 16, 40), stripped)])
  {
    January27Parses();
    January27Fields();
    ExtractSingleLine("Di", "27.01.2026", "16:40", "KG ZNS ", name, DateTime(2026, 1, 27, 16, 40));
  }

  lemma PlainKatja()
    ensures ')' !in "Katja" && Strip("Katja") == "Katja"
  {
    LacksByScan("Katja", ')');
    StripUnpadded("Katja");
  }

  /** The single-appointment test: date, time and name as written. */
  lemma SingleAppointment()
    ensures ExtractAppointments(Line("Di", "27.01.2026", "16:40", "KG ZNS ", "Katja"))
            == Success([Appointment(DateTime(2026, 1, 27, 16, 40), "Katja")])
  {
    PlainKatja();
    January27Line("Katja", "Katja");
  }

  lemma PaddedKatja()
    ensures ')' !in "  Katja  " && Strip("  Katja  ") == "Katja"
  {
    LacksByScan("  Katja  ", ')');
    assert "  Katja  " == "  " + "Katja" + "  ";
    StripSurrounded("  ", "Katja", "  ");
  }

  /** Blanks inside the parentheses do not reach the name. */
  lemma PaddedName()
    ensures ExtractAppointments(Line("Di", "27.01.2026", "16:40", "KG ZNS ", "  Katja  "))
            == Success([Appointment(DateTime(2026, 1, 27, 16, 40), "Katja")])
  {
    PaddedKatja();
    January27Line("  Katja  ", "Katja");
  }

  lemma DrSmith()
    ensures ')' !in "Dr. Smith" && Strip("Dr. Smith") == "Dr. Smith"
  {
    LacksByScan("Dr. Smith", ')');
    StripUnpadded("Dr. Smith");
  }

  /** A title and an inner blank stay part of the name. */
  lemma NameWithTitle()
    ensures ExtractAppointments(Line("Di", "27.01.2026", "16:40", "KG ZNS ", "Dr. Smith"))
            == Success([Appointment(DateTime(2026, 1, 27, 16, 40), "Dr. Smith")])
  {
    DrSmith();
    January27Line("Dr. Smith", "Dr. Smith");
  }

  /** The lines of the ordering test: not in date order. */
  const OutOfOrder: seq<Row> := [Mike1530, Katja1640, KatjaFebruary]

  lemma GoodOutOfOrderRows()
    ensures forall i :: 0 <= i < |OutOfOrder| ==> GoodRow(OutOfOrder[i])
  {
    GoodLaterRows();
    assert GoodRow(Mike1530) && GoodRow(Katja1640);
  }

  lemma OutOfOrderExpected()
    ensures Expected(OutOfOrder)
            == [Appointment(DateTime(2026, 1, 29, 15, 30), "Mike"),
                Appointment(DateTime(2026, 1, 27, 16, 40), "Katja"),
                Appointment(DateTime(2026, 2, 3, 16, 40), "Katja")]
  {
    ExpectedCons(KatjaFebruary, []);
    ExpectedCons(Katja1640, [KatjaFebruary]);
    ExpectedCons(Mike1530, [Katja1640, KatjaFebruary]);
  }

  /** The result follows the text, not the calendar: the 29th comes before
      the 27th because it is written first. */
  lemma AppointmentsInOrderOfOccurrence()
    ensures (GoodOutOfOrderRows(); ExtractAppointments(Indented(OutOfOrder)))
            == Success([Appointment(DateTime(2026, 1, 29, 15, 30), "Mike"),
                        Appointment(DateTime(2026, 1, 27, 16, 40), "Katja"),
                        Appointment(DateTime(2026, 2, 3, 16, 40), "Katja")])
  {
    GoodOutOfOrderRows();
    ExtractIndentedText(OutOfOrder);
    OutOfOrderExpected();
  }

  /** The lines of the test spanning four months. */
  const FourMonths: seq<Row> := [Katja1640, KatjaFebruary, MikeMarch, ThomasApril]

  lemma GoodFourMonthsRows()
    ensures forall i :: 0 <= i < |FourMonths| ==> GoodRow(FourMonths[i])
  {
    GoodLaterRows();
    assert GoodRow(Katja1640);
  }

  lemma FourMonthsExpected()
    ensures Expected(FourMonths)
            == [Appointment(DateTime(2026, 1, 27, 16, 40), "Katja"),
                Appointment(DateTime(2026, 2, 3, 16, 40), "Katja"),
                Appointment(DateTime(2026, 3, 3, 16, 40), "Mike"),
                Appointment(DateTime(2026, 4, 7, 16, 40), "Thomas")]
  {
    ExpectedCons(ThomasApril, []);
    ExpectedCons(MikeMarch, [ThomasApril]);
    ExpectedCons(KatjaFebruary, [MikeMarch, ThomasApril]);
    ExpectedCons(Katja1640, [KatjaFebruary, MikeMarch, ThomasApril]);
  }

  /** January to April, one line each, read in that order. */
  lemma AppointmentsInDifferentMonths()
    ensures (GoodFourMonthsRows(); ExtractAppointments(Indented(FourMonths)))
            == Success([Appointment(DateTime(2026, 1, 27, 16, 40), "Katja"),
                        Appointment(DateTime(2026, 2, 3, 16, 40), "Katja"),
                        Appointment(DateTime(2026, 3, 3, 16, 40), "Mike"),
                        Appointment(DateTime(2026, 4, 7, 16, 40), "Thomas")])
  {
    GoodFourMonthsRows();
    ExtractIndentedText(FourMonths);
    FourMonthsExpected();
  }

  /** The letterhead above the appointment lines of the surrounding-text
      test: "rehalife GmbH", "Schloßstraße 110", "12163 Berlin", then
      "Behandlungstermine für das Rezept vom 08.02.2023". */
  const AddressName: string := "\n        " + "rehalife " + "GmbH\n"
  const AddressStreet: string := "        " + "Schloßstraße " + "110\n"
  const AddressTown: string := "        " + "12163 " + "Berlin\n"
  const Address: string := AddressName + AddressStreet + AddressTown
  const HeadingTitle: string := "        \n" + "        " + ("Behandlungs" + "termine ")
  const HeadingDate: string := "für das " + "Rezept vom " + "08.02.2023\n"
  const Letterhead: string := Address + HeadingTitle + HeadingDate + "        "

  /** The closing remark below them: "Terminabsage: Bitte sagen Sie Termine ab." */
  const Closing: string :=
    "\n        " + "Terminabsage: " + "Bitte " + "sagen " + "Sie " + "Termine " + "ab.\n" + "        "

  lemma AddressNameIsInert()
    ensures Inert(AddressName)
  {
    InertByScan("\n        ");
    InertByScan("rehalife ");
    InertByScan("GmbH\n");
    InertThree("\n        ", "rehalife ", "GmbH\n");
  }

  lemma AddressStreetIsInert()
    ensures Inert(AddressStreet)
  {
    InertByScan("        ");
    InertByScan("Schloßstraße ");
    InertByScan("110\n");
    InertThree("        ", "Schloßstraße ", "110\n");
  }

  lemma AddressTownIsInert()
    ensures Inert(AddressTown)
  {
    InertByScan("        ");
    InertByScan("12163 ");
    InertByScan("Berlin\n");
    InertThree("        ", "12163 ", "Berlin\n");
  }

  lemma HeadingTitleIsInert()
    ensures Inert(HeadingTitle)
  {
    InertByScan("        \n");
    InertByScan("        ");
    InertByScan("termine ");
    InertAfterWord("Behandlungs", "termine ");
    InertThree("        \n", "        ", "Behandlungs" + "termine ");
  }

  /** "vom 08.02.2023" cannot start a match: a blank stands before the digits. */
  lemma HeadingDateIsInert()
    ensures Inert(HeadingDate)
  {
    InertByScan("für das ");
    InertByScan("Rezept vom ");
    InertByScan("08.02.2023\n");
    InertThree("für das ", "Rezept vom ", "08.02.2023\n");
  }

  /** Nowhere in the letterhead do two letters stand right before a digit. */
  lemma LetterheadIsInert()
    ensures Inert(Letterhead)
  {
    AddressNameIsInert();
    AddressStreetIsInert();
    AddressTownIsInert();
    InertThree(AddressName, AddressStreet, AddressTown);
    HeadingTitleIsInert();
    HeadingDateIsInert();
    InertByScan("        ");
    InertThree(Address, HeadingTitle, HeadingDate);
    InertConcat(Address + HeadingTitle + HeadingDate, "        ");
  }

  const TwoOnTheTwentySeventh: seq<Row> := [Katja1640, Katja1710]

  /** Good rows between inert text in front and appointment-free text
      behind give just their own appointments. */
  lemma ExtractBetween(front: string, rows: seq<Row>, back: string)
    requires Inert(front)
    requires forall i :: 0 <= i < |rows| ==> GoodRow(rows[i])
    requires ExtractAppointments(back) == Success([])
    ensures ExtractAppointments(front + Indented(rows) + back) == Success(Expected(rows))
  {
    ExtractIndented(rows, back);
    SeqAssoc(front, Indented(rows), back);
    ExtractAfterNoise(front, Indented(rows) + back);
  }

  lemma GoodTwentySeventhRows()
    ensures forall i :: 0 <= i < |TwoOnTheTwentySeventh| ==> GoodRow(TwoOnTheTwentySeventh[i])
  {
    assert GoodRow(Katja1640) && GoodRow(Katja1710);
  }

  lemma ClosingYieldsNothing()
    ensures ExtractAppointments(Closing) == Success([])
  {
    ExtractWithoutParen(Closing);
  }

  lemma TwoOnTheTwentySeventhAfterLetterhead()
    ensures (GoodTwentySeventhRows();
             ExtractAppointments(Letterhead + Indented(TwoOnTheTwentySeventh) + Closing))
            == Success(Expected(TwoOnTheTwentySeventh))
  {
    GoodTwentySeventhRows();
    LetterheadIsInert();
    ClosingYieldsNothing();
    ExtractBetween(Letterhead, TwoOnTheTwentySeventh, Closing);
  }

  lemma TwoOnTheTwentySeventhExpected()
    ensures Expected(TwoOnTheTwentySeventh)
            == [Appointment(DateTime(2026, 1, 27, 16, 40), "Katja"),
                Appointment(DateTime(2026, 1, 27, 17, 10), "Katja")]
  {
    ExpectedCons(Katja1710, []);
    ExpectedCons(Katja1640, [Katja1710]);
  }

  /** The appointment lines are found between the letterhead and the closing
      remark, which contribute nothing. */
  lemma AppointmentsWithSurroundingText()
    ensures (GoodTwentySeventhRows();
             ExtractAppointments(Letterhead + Indented(TwoOnTheTwentySeventh) + Closing))
            == Success([Appointment(DateTime(2026, 1, 27, 16, 40), "Katja"),
                        Appointment(DateTime(2026, 1, 27, 17, 10), "Katja")])
  {
    TwoOnTheTwentySeventhAfterLetterhead();
    TwoOnTheTwentySeventhExpected();
  }

  /** No match starts at the one character in front, and none can start
      after it. */
  lemma NoMatchPastFirst(head: string, tail: string)
    requires |head| == 1 && Inert(tail)
    requires forall q, e :: !Shape(head + tail, 0, q, e)
    ensures NoMatchStartsIn(head + tail, 0, |head + tail|)
  {
    InertHasNoMatch(tail);
    NoMatchInSuffix(head, tail, 0, |tail|);
  }

  /** "27.01.2026 16:40 (Katja)": without the weekday abbreviation nothing
      matches. */
  const WithoutWeekday: string := "27.01.2026" + " 16:40" + " (Katja)"

  lemma NoMatchWithoutWeekday()
    ensures NoMatchStartsIn(WithoutWeekday, 0, |WithoutWeekday|)
  {
    InertByScan("27.01.2026");
    InertByScan(" 16:40");
    InertByScan(" (Katja)");
    InertThree("27.01.2026", " 16:40", " (Katja)");
    InertHasNoMatch(WithoutWeekday);
  }

  /** "Di27.01.2026 (Katja)": without the time the blank after the date is
      where a digit must be. */
  const WithoutTime: string := "D" + ("i27.01.2026" + " (Katja)")

  lemma NoMatchWithoutTime()
    ensures NoMatchStartsIn(WithoutTime, 0, |WithoutTime|)
  {
    var tail := "i27.01.2026" + " (Katja)";
    InertByScan("i27.01.2026");
    InertByScan(" (Katja)");
    InertConcat("i27.01.2026", " (Katja)");
    forall q, e
      ensures !Shape(WithoutTime, 0, q, e)
    {
      if Shape(WithoutTime, 0, q, e) {
        ShapeHead(WithoutTime, 0, q, e);
        assert false;
      }
    }
    NoMatchPastFirst("D", tail);
  }

  /** "Di27.01.202616:40 Katja": without parentheses there is no name group
      to close. */
  const WithoutParentheses: string := "Di27.01.2026" + "16:40 Katja"

  lemma NoMatchWithoutParentheses()
    ensures NoMatchStartsIn(WithoutParentheses, 0, |WithoutParentheses|)
  {
    LacksByScan("Di27.01.2026", '(');
    LacksByScan("16:40 Katja", '(');
    NoMatchWithoutStart(WithoutParentheses, 0, |WithoutParentheses|);
  }

  /** "27/01/2026 16:40 (Katja)" */
  const WithSlashes: string := "27/01/2026" + " 16:40" + " (Katja)"

  lemma NoMatchWithSlashes()
    ensures NoMatchStartsIn(WithSlashes, 0, |WithSlashes|)
  {
    InertByScan("27/01/2026");
    InertByScan(" 16:40");
    InertByScan(" (Katja)");
    InertThree("27/01/2026", " 16:40", " (Katja)");
    InertHasNoMatch(WithSlashes);
  }

  /** "Di27-01-202616:40 (Katja)": dashes stand where the date needs dots. */
  const WithDashes: string := "D" + ("i27-01-2026" + "16:40" + " (Katja)")

  lemma NoMatchWithDashes()
    ensures NoMatchStartsIn(WithDashes, 0, |WithDashes|)
  {
    var tail := "i27-01-2026" + "16:40" + " (Katja)";
    InertByScan("i27-01-2026");
    InertByScan("16:40");
    InertByScan(" (Katja)");
    InertThree("i27-01-2026", "16:40", " (Katja)");
    forall q, e
      ensures !Shape(WithDashes, 0, q, e)
    {
      if Shape(WithDashes, 0, q, e) {
        ShapeHead(WithDashes, 0, q, e);
        assert false;
      }
    }
    NoMatchPastFirst("D", tail);
  }

  /** "Do 08.01.2026 14:30 O60 (Thomas)": the pattern has no room for blanks
      between the weekday, the date and the time, so a line written with
      them is not found. */
  const WithBlanks: string := "Do 08.01.2026" + " 14:30 O60" + " (Thomas)"

  lemma WithBlanksIsInert()
    ensures Inert(WithBlanks)
  {
    InertByScan("Do 08.01.2026");
    InertByScan(" 14:30 O60");
    InertByScan(" (Thomas)");
    InertThree("Do 08.01.2026", " 14:30 O60", " (Thomas)");
  }

  lemma NoMatchWithBlanks()
    ensures NoMatchStartsIn(WithBlanks, 0, |WithBlanks|)
  {
    WithBlanksIsInert();
    InertHasNoMatch(WithBlanks);
  }

  /** A good row, then the line written with blanks, then more good rows:
      the line with blanks contributes nothing. */
  lemma SpacedLineBetween(r: Row, rows: seq<Row>)
    requires GoodRow(r)
    requires forall i :: 0 <= i < |rows| ==> GoodRow(rows[i])
    ensures ExtractAppointments(Indent + RowLine(r) + (Indent + WithBlanks) + Indented(rows))
            == Success(Expected([r] + rows))
  {
    ExpectedCons(r, rows);
    var noise := Indent + WithBlanks;
    SeqAssoc(Indent + RowLine(r), noise, Indented(rows));
    ExtractRowThen(r, noise + Indented(rows));
    IndentIsInert();
    WithBlanksIsInert();
    InertConcat(Indent, WithBlanks);
    ExtractAfterNoise(noise, Indented(rows));
    ExtractIndentedText(rows);
  }

  const MtMike: Row := Row("Di", DateTime(2026, 1, 27, 16, 40), "MT ", "Mike")
  const MassageAnna: Row := Row("Di", DateTime(2026, 1, 27, 16, 40), "Massage ", "Anna")

  lemma GoodSpacedTestRows()
    ensures GoodRow(Katja1640) && GoodRow(Mike1530)
    ensures forall i :: 0 <= i < |[Mike1530]| ==> GoodRow([Mike1530][i])
    ensures forall i :: 0 <= i < |[MtMike, MassageAnna]| ==> GoodRow([MtMike, MassageAnna][i])
  {
    assert GoodRow(MtMike) && GoodRow(MassageAnna);
  }

  /** The mixed-format test text: "Do 08.01.2026 14:30 O60 (Thomas)" stands
      between two lines without blanks and is passed over, so the Katja and
      Mike appointments are all that come out. */
  lemma MixedFormatSkipsSpacedLine()
    ensures (GoodSpacedTestRows();
             ExtractAppointments(Indent + RowLine(Katja1640) + (Indent + WithBlanks) + Indented([Mike1530])))
            == Success([Appointment(DateTime(2026, 1, 27, 16, 40), "Katja"),
                        Appointment(DateTime(2026, 1, 29, 15, 30), "Mike")])
  {
    GoodSpacedTestRows();
    SpacedLineBetween(Katja1640, [Mike1530]);
    MixedExpected();
  }

  lemma MixedExpected()
    ensures Expected([Katja1640, Mike1530])
            == [Appointment(DateTime(2026, 1, 27, 16, 40), "Katja"),
                Appointment(DateTime(2026, 1, 29, 15, 30), "Mike")]
  {
    ExpectedCons(Mike1530, []);
    ExpectedCons(Katja1640, [Mike1530]);
  }

  /** The treatment-codes test text: the "MT" and "Massage" lines match like
      any other, and the line with blanks is again passed over. */
  lemma TreatmentCodesSkipSpacedLine()
    ensures (GoodSpacedTestRows();
             ExtractAppointments(Indent + RowLine(Katja1640) + (Indent + WithBlanks) + Indented([MtMike, MassageAnna])))
            == Success([Appointment(DateTime(2026, 1, 27, 16, 40), "Katja"),
                        Appointment(DateTime(2026, 1, 27, 16, 40), "Mike"),
                        Appointment(DateTime(2026, 1, 27, 16, 40), "Anna")])
  {
    GoodSpacedTestRows();
    SpacedLineBetween(Katja1640, [MtMike, MassageAnna]);
    TreatmentCodesExpected();
  }

  lemma TreatmentCodesExpected()
    ensures Expected([Katja1640, MtMike, MassageAnna])
            == [Appointment(DateTime(2026, 1, 27, 16, 40), "Katja"),
                Appointment(DateTime(2026, 1, 27, 16, 40), "Mike"),
                Appointment(DateTime(2026, 1, 27, 16, 40), "Anna")]
  {
    ExpectedCons(MassageAnna, []);
    ExpectedCons(MtMike, [MassageAnna]);
    ExpectedCons(Katja1640, [MtMike, MassageAnna]);
  }

  /** strptime's verdicts on the date and time fields, one rule each. */
  lemma February31Rejected()
    ensures ParseDateTime("31.02.2026", "16:40") == Failure(DayOutOfRange)
  {
    FieldsByDigits("31.02.2026", "16:40");
  }

  lemma February29Of2025Rejected()
    ensures ParseDateTime("29.02.2025", "16:40") == Failure(DayOutOfRange)
  {
    FieldsByDigits("29.02.2025", "16:40");
  }

  lemma February29Of2024Accepted()
    ensures ParseDateTime("29.02.2024", "16:40") == Success(DateTime(2024, 2, 29, 16, 40))
  {
    FieldsByDigits("29.02.2024", "16:40");
  }

  lemma YearZeroRejected()
    ensures ParseDateTime("27.01.0000", "16:40") == Failure(YearOutOfRange)
  {
    FieldsByDigits("27.01.0000", "16:40");
  }

  lemma DayZeroRejected()
    ensures ParseDateTime("00.01.2026", "16:40") == Failure(FormatMismatch)
  {
    FieldsByDigits("00.01.2026", "16:40");
  }

  lemma Hour24Rejected()
    ensures ParseDateTime("27.01.2026", "24:00") == Failure(FormatMismatch)
  {
    FieldsByDigits("27.01.2026", "24:00");
  }

  /** `%M` reads only the "6" of "60" and leaves the "0" over. */
  lemma Minute60Rejected()
    ensures ParseDateTime("27.01.2026", "16:60") == Failure(UnconvertedData)
  {
    FieldsByDigits("27.01.2026", "16:60");
  }

  /** A day the calendar does not have, on the second of two lines. */
  const February31Line: string := Line("Di", "31.02.2026", "16:40", "KG ZNS ", "Katja")

  /** A line whose date strptime rejects fails the extraction, whatever
      follows it. */
  lemma ExtractBadLineThen(weekday: string, date: string, time: string, kind: string, name: string,
                           reason: DateTimeError, rest: string)
    requires WellFormedLine(weekday, date, time, kind, name)
    requires ParseDateTime(date, time) == Failure(reason)
    ensures ExtractAppointments(Indent + Line(weekday, date, time, kind, name) + rest)
            == Failure(InvalidDateTime(date + " " + time, reason))
  {
    var line := Line(weekday, date, time, kind, name);
    IndentIsInert();
    assert Indent + line + rest == Indent + (line + rest);
    ExtractAfterNoise(Indent, line + rest);
    ExtractLineThen(weekday, date, time, kind, name, rest);
    LineFails(weekday, date, time, kind, name, reason);
  }

  lemma February31LineFails()
    ensures ExtractAppointments(Indent + February31Line + Indent)
            == Failure(InvalidDateTime("31.02.2026" + " " + "16:40", DayOutOfRange))
  {
    assert WellFormedLine("Di", "31.02.2026", "16:40", "KG ZNS ", "Katja");
    February31Rejected();
    ExtractBadLineThen("Di", "31.02.2026", "16:40", "KG ZNS ", "Katja", DayOutOfRange, Indent);
  }

  /** A failure after a good row is the failure of the whole text. */
  lemma FailureAfterRow(r: Row, rest: string)
    requires GoodRow(r)
    requires ExtractAppointments(rest).Failure?
    ensures ExtractAppointments(Indent + RowLine(r) + rest) == ExtractAppointments(rest)
  {
    ExtractRowThen(r, rest);
  }

  lemma GoodKatja1640()
    ensures GoodRow(Katja1640)
  {
  }

  /** One bad date fails the whole extraction: the good line before it is
      not returned on its own. The error is the day out of range, tagged
      with "31.02.2026 16:40". */
  lemma InvalidDateFailsEverything()
    ensures (GoodKatja1640();
             ExtractAppointments(Indent + RowLine(Katja1640) + (Indent + February31Line + Indent)))
            == Failure(InvalidDateTime("31.02.2026" + " " + "16:40", DayOutOfRange))
  {
    GoodKatja1640();
    February31LineFails();
    FailureAfterRow(Katja1640, Indent + February31Line + Indent);
  }
}

=== FILE: strptime.dfy ===
/** `datetime.strptime(f"{date} {time}", "%d.%m.%Y %H:%M")` on the digit
    layouts the appointment pattern lets through. */
module Strptime {
  import opened Wrappers
  import opened Text
  import opened Calendar

  /** Why `strptime` raises `ValueError`, in the order it checks. */
  datatype DateTimeError =
    | FormatMismatch   // "time data ... does not match format": day, month or hour field rejected
    | UnconvertedData  // "unconverted data remains": minute 60..99, of which only one digit is read
    | YearOutOfRange   // year 0000 is below MINYEAR
    | DayOutOfRange    // the day does not exist in that month of that year

  /** `\d{2}\.\d{2}\.\d{4}` */
  predicate DateLayout(s: string) {
    && |s| == 10
    && AllDigits(s[0..2]) && s[2] == '.'
    && AllDigits(s[3..5]) && s[5] == '.'
    && AllDigits(s[6..10])
  }

  /** `\d{2}:\d{2}` */
  predicate TimeLayout(s: string) {
    && |s| == 5
    && AllDigits(s[0..2]) && s[2] == ':'
    && AllDigits(s[3..5])
  }

  /** The two-digit alternatives of strptime's field patterns:
      `%d` 3[01]|[12]\d|0[1-9], `%m` 1[0-2]|0[1-9], `%H` 2[0-3]|[0-1]\d,
      `%M` [0-5]\d. A one-digit alternative cannot be followed by the next
      literal here, except for `%M`, where it leaves a digit unconverted. */
  predicate DayField(a: char, b: char) {
    || (a == '3' && (b == '0' || b == '1'))
    || ((a == '1' || a == '2') && IsAsciiDigit(b))
    || (a == '0' && '1' <= b <= '9')
  }

  predicate MonthField(a: char, b: char) {
    || (a == '1' && '0' <= b <= '2')
    || (a == '0' && '1' <= b <= '9')
  }

  predicate HourField(a: char, b: char) {
    || (a == '2' && '0' <= b <= '3')
    || ((a == '0' || a == '1') && IsAsciiDigit(b))
  }

  predicate MinuteField(a: char, b: char) {
    '0' <= a <= '5' && IsAsciiDigit(b)
  }

  lemma TwoDigitValue(s: string)
    requires |s| == 2 && AllDigits(s)
    ensures DecimalValue(s) == 10 * DigitValue(s[0]) + DigitValue(s[1])
  {
    assert s[..1][..0] == [];
  }

  lemma FourDigitValue(s: string)
    requires |s| == 4 && AllDigits(s)
    ensures DecimalValue(s) == 1000 * DigitValue(s[0]) + 100 * DigitValue(s[1]) + 10 * DigitValue(s[2]) + DigitValue(s[3])
  {
    var init := s[..3];
    assert init[..2] == s[..2];
    TwoDigitValue(s[..2]);
  }

  /** The numbers written in the date and time fields, unchecked. */
  function Fields(date: string, time: string): DateTime
    requires DateLayout(date) && TimeLayout(time)
  {
    DateTime(DecimalValue(date[6..10]), DecimalValue(date[3..5]), DecimalValue(date[0..2]),
             DecimalValue(time[0..2]), DecimalValue(time[3..5]))
  }

  /** The fields read digit by digit. */
  lemma FieldsByDigits(date: string, time: string)
    requires DateLayout(date) && TimeLayout(time)
    ensures Fields(date, time)
            == DateTime(1000 * DigitValue(date[6]) + 100 * DigitValue(date[7]) + 10 * DigitValue(date[8]) + DigitValue(date[9]),
                        10 * DigitValue(date[3]) + DigitValue(date[4]),
                        10 * DigitValue(date[0]) + DigitValue(date[1]),
                        10 * DigitValue(time[0]) + DigitValue(time[1]),
                        10 * DigitValue(time[3]) + DigitValue(time[4]))
  {
    TwoDigitValue(date[0..2]);
    TwoDigitValue(date[3..5]);
    FourDigitValue(date[6..10]);
    TwoDigitValue(time[0..2]);
    TwoDigitValue(time[3..5]);
  }

  /** The fields fit the widths of `DD.MM.YYYY HH:MM`, whether or not they
      name a real moment. */
  predicate Printable(dt: DateTime) {
    && 0 <= dt.day < 100 && 0 <= dt.month < 100 && 0 <= dt.year < 10000
    && 0 <= dt.hour < 100 && 0 <= dt.minute < 100
  }

  /** `strftime("%d.%m.%Y")` */
  function FormatDate(dt: DateTime): (s: string)
    requires Printable(dt)
    ensures DateLayout(s)
  {
    var s := ZeroPadded(dt.day, 2) + "." + ZeroPadded(dt.month, 2) + "." + ZeroPadded(dt.year, 4);
    assert s[0..2] == ZeroPadded(dt.day, 2);
    assert s[3..5] == ZeroPadded(dt.month, 2);
    assert s[6..10] == ZeroPadded(dt.year, 4);
    s
  }

  /** `strftime("%H:%M")` */
  function FormatTime(dt: DateTime): (s: string)
    requires Printable(dt)
    ensures TimeLayout(s)
  {
    var s := ZeroPadded(dt.hour, 2) + ":" + ZeroPadded(dt.minute, 2);
    assert s[0..2] == ZeroPadded(dt.hour, 2);
    assert s[3..5] == ZeroPadded(dt.minute, 2);
    s
  }

  /** Formatting reads back the very fields it was given. */
  lemma FieldsOfFormat(dt: DateTime)
    requires Printable(dt)
    ensures Fields(FormatDate(dt), FormatTime(dt)) == dt
  {
    var date := FormatDate(dt);
    var time := FormatTime(dt);
    assert date[0..2] == ZeroPadded(dt.day, 2);
    assert date[3..5] == ZeroPadded(dt.month, 2);
    assert date[6..10] == ZeroPadded(dt.year, 4);
    assert time[0..2] == ZeroPadded(dt.hour, 2);
    assert time[3..5] == ZeroPadded(dt.minute, 2);
  }

  /** A date and a time text are the formatting of their own fields. */
  lemma FormatOfFields(date: string, time: string)
    requires DateLayout(date) && TimeLayout(time)
    requires IsPyDateTime(Fields(date, time))
    ensures FormatDate(Fields(date, time)) == date
    ensures FormatTime(Fields(date, time)) == time
  {
    var dt := Fields(date, time);
    ZeroPaddedOfDecimal(date[0..2]);
    ZeroPaddedOfDecimal(date[3..5]);
    ZeroPaddedOfDecimal(date[6..10]);
    ZeroPaddedOfDecimal(time[0..2]);
    ZeroPaddedOfDecimal(time[3..5]);
    assert date == date[0..2] + "." + date[3..5] + "." + date[6..10];
    assert time == time[0..2] + ":" + time[3..5];
  }

  /** Each field pattern accepts its two digits exactly when their value
      is in the field's range. */
  lemma FieldPatterns(date: string, time: string)
    requires DateLayout(date) && TimeLayout(time)
    ensures var f := Fields(date, time);
            && (DayField(date[0], date[1]) <==> 1 <= f.day <= 31)
            && (MonthField(date[3], date[4]) <==> 1 <= f.month <= 12)
            && (HourField(time[0], time[1]) <==> f.hour <= 23)
            && (MinuteField(time[3], time[4]) <==> f.minute <= 59)
  {
    TwoDigitValue(date[0..2]);
    TwoDigitValue(date[3..5]);
    TwoDigitValue(time[0..2]);
    TwoDigitValue(time[3..5]);
    assert date[0..2][0] == date[0] && date[0..2][1] == date[1];
    assert date[3..5][0] == date[3] && date[3..5][1] == date[4];
    assert time[0..2][0] == time[0] && time[0..2][1] == time[1];
    assert time[3..5][0] == time[3] && time[3..5][1] == time[4];
  }

  /** Parses `"DD.MM.YYYY HH:MM"`. It succeeds exactly when the fields name a
      Python `datetime`, and then gives back the fields as written;
      `ParseDateTimeReasons` says which error it gives otherwise. */
  function ParseDateTime(date: string, time: string): (r: Result<DateTime, DateTimeError>)
    requires DateLayout(date) && TimeLayout(time)
    ensures r.Success? <==> IsPyDateTime(Fields(date, time))
    ensures r.Success? ==> r.value == Fields(date, time)
  {
    FieldPatterns(date, time);
    if !(DayField(date[0], date[1]) && MonthField(date[3], date[4]) && HourField(time[0], time[1])) then
      Failure(FormatMismatch)
    else if !MinuteField(time[3], time[4]) then
      Failure(UnconvertedData)
    else
      var f := Fields(date, time);
      if !(MinYear <= f.year <= MaxYear) then Failure(YearOutOfRange)
      else if f.day > DaysInMonth(f.year, f.month) then Failure(DayOutOfRange)
      else Success(f)
  }

  /** The error is the first rule strptime finds broken: day 01..31, month
      01..12 and hour 00..23 first, then minute 00..59, then year >= 1, then
      the day against the month's length in that (leap or common) year. */
  lemma ParseDateTimeReasons(date: string, time: string)
    requires DateLayout(date) && TimeLayout(time)
    ensures var r := ParseDateTime(date, time);
            var f := Fields(date, time);
            var fieldsMatch := 1 <= f.day <= 31 && 1 <= f.month <= 12 && f.hour <= 23;
            && (r == Failure(FormatMismatch) <==> !fieldsMatch)
            && (r == Failure(UnconvertedData) <==> fieldsMatch && f.minute >= 60)
            && (r == Failure(YearOutOfRange) <==> fieldsMatch && f.minute < 60 && f.year == 0)
            && (r == Failure(DayOutOfRange) <==>
                  fieldsMatch && f.minute < 60 && f.year >= 1 && f.day > DaysInMonth(f.year, f.month))
  {
    FieldPatterns(date, time);
  }

  /** Formatting a date-time and parsing it back gives the same date-time. */
  lemma ParseFormatRoundTrip(dt: DateTime)
    requires IsPyDateTime(dt)
    ensures ParseDateTime(FormatDate(dt), FormatTime(dt)) == Success(dt)
  {
    FieldsOfFormat(dt);
  }
}

=== FILE: text.dfy ===
/** ASCII character classes, decimal digit strings and whitespace stripping. */
module Text {
  import opened Wrappers

  /** The regex class `[A-Za-z]`. */
  predicate IsAsciiLetter(c: char) {
    ('A' <= c <= 'Z') || ('a' <= c <= 'z')
  }

  /** The regex class `\d`, restricted to ASCII digits. */
  predicate IsAsciiDigit(c: char) {
    '0' <= c <= '9'
  }

  predicate AllDigits(s: string) {
    forall i :: 0 <= i < |s| ==> IsAsciiDigit(s[i])
  }

  function DigitValue(c: char): (v: nat)
    requires IsAsciiDigit(c)
    ensures v <= 9
  {
    c as int - '0' as int
  }

  function DigitChar(v: nat): (c: char)
    requires v <= 9
    ensures IsAsciiDigit(c) && DigitValue(c) == v
  {
    ('0' as int + v) as char
  }

  function Pow10(n: nat): (r: nat)
    ensures r >= 1
  {
    if n == 0 then 1 else 10 * Pow10(n - 1)
  }

  /** The value of a string of decimal digits, most significant digit first. */
  function DecimalValue(s: string): (v: nat)
    requires AllDigits(s)
    ensures v < Pow10(|s|)
  {
    if s == [] then 0 else 10 * DecimalValue(s[..|s| - 1]) + DigitValue(s[|s| - 1])
  }

  /** `v` written with exactly `width` digits, left-padded with zeros (`"%0*d"`). */
  function ZeroPadded(v: nat, width: nat): (s: string)
    requires v < Pow10(width)
    ensures |s| == width && AllDigits(s)
    ensures DecimalValue(s) == v
  {
    if width == 0 then []
    else
      var init := ZeroPadded(v / 10, width - 1);
      var s := init + [DigitChar(v % 10)];
      assert s[..|s| - 1] == init;
      s
  }

  /** Every digit string is the zero-padded rendering of its own value. */
  lemma {:induction false} ZeroPaddedOfDecimal(s: string)
    requires AllDigits(s)
    ensures ZeroPadded(DecimalValue(s), |s|) == s
  {
    if s != [] {
      var init := s[..|s| - 1];
      ZeroPaddedOfDecimal(init);
      assert DecimalValue(s) / 10 == DecimalValue(init);
      assert DecimalValue(s) % 10 == DigitValue(s[|s| - 1]);
      assert s == init + [s[|s| - 1]];
    }
  }

  /** The first position at or after `from` holding `c`: where a run of
      characters other than `c`, such as the pattern's `[^(]+` or `[^)]+`,
      must stop. */
  function IndexOf(s: string, c: char, from: nat): (r: Option<nat>)
    decreases |s| - from
    ensures r.Some? ==> from <= r.value < |s| && s[r.value] == c
    ensures r.Some? ==> forall k :: from <= k < r.value ==> s[k] != c
    ensures r.None? ==> forall k :: from <= k < |s| ==> s[k] != c
  {
    if from >= |s| then None
    else if s[from] == c then Some(from)
    else IndexOf(s, c, from + 1)
  }

  /** The ASCII characters `str.strip()` removes: space, tab, line feed,
      vertical tab, form feed, carriage return, and the four separators
      0x1C..0x1F. */
  predicate IsStripSpace(c: char) {
    || c == ' ' || c == '\t' || c == '\n' || c == '\r' || c == 11 as char || c == 12 as char
    || 28 as char <= c <= 31 as char
  }

  function TrimStart(s: string): (r: string)
    ensures |r| <= |s| && r == s[|s| - |r|..]
    ensures forall k :: 0 <= k < |s| - |r| ==> IsStripSpace(s[k])
    ensures r == [] || !IsStripSpace(r[0])
  {
    if s != [] && IsStripSpace(s[0]) then TrimStart(s[1..]) else s
  }

  function TrimEnd(s: string): (r: string)
    ensures |r| <= |s| && r == s[..|r|]
    ensures forall k :: |r| <= k < |s| ==> IsStripSpace(s[k])
    ensures r == [] || !IsStripSpace(r[|r| - 1])
  {
    if s != [] && IsStripSpace(s[|s| - 1]) then TrimEnd(s[..|s| - 1]) else s
  }

  /** `r` is `s[i..i + |r|]` and everything of `s` around it is whitespace. */
  ghost predicate StrippedAt(s: string, i: int, r: string) {
    && 0 <= i && i + |r| <= |s|
    && r == s[i..i + |r|]
    && (forall k :: 0 <= k < i ==> IsStripSpace(s[k]))
    && (forall k :: i + |r| <= k < |s| ==> IsStripSpace(s[k]))
  }

  /** Python's `str.strip()` with no argument: the longest infix of `s` that
      neither starts nor ends with whitespace, found by removing whitespace
      from both ends. */
  function Strip(s: string): (r: string)
    ensures exists i :: StrippedAt(s, i, r)
    ensures r == [] || (!IsStripSpace(r[0]) && !IsStripSpace(r[|r| - 1]))
  {
    var front := TrimStart(s);
    var r := TrimEnd(front);
    assert StrippedAt(s, |s| - |front|, r);
    r
  }

  /** Stripping twice removes nothing more. */
  lemma StripIdempotent(s: string)
    ensures Strip(Strip(s)) == Strip(s)
  {
    var r := Strip(s);
    if r != [] {
      assert TrimStart(r) == r;
      assert TrimEnd(r) == r;
    }
  }

  /** Stripping adds no character: what is absent from the text is absent
      from the stripped text. */
  lemma StripAddsNothing(s: string, c: char)
    requires c !in s
    ensures c !in Strip(s)
  {
    var r := Strip(s);
    var i :| StrippedAt(s, i, r);
    forall k | 0 <= k < |r|
      ensures r[k] != c
    {
      assert r[k] == s[i + k];
    }
  }

  predicate AllStripSpace(s: string) {
    forall k :: 0 <= k < |s| ==> IsStripSpace(s[k])
  }

  lemma {:induction false} TrimStartSpaces(pre: string, t: string)
    requires AllStripSpace(pre)
    requires t == [] || !IsStripSpace(t[0])
    ensures TrimStart(pre + t) == t
  {
    if pre != [] {
      assert (pre + t)[1..] == pre[1..] + t;
      TrimStartSpaces(pre[1..], t);
    }
  }

  lemma {:induction false} TrimEndSpaces(t: string, post: string)
    requires AllStripSpace(post)
    requires t == [] || !IsStripSpace(t[|t| - 1])
    ensures TrimEnd(t + post) == t
  {
    if post != [] {
      var init := post[..|post| - 1];
      assert (t + post)[..|t + post| - 1] == t + init;
      TrimEndSpaces(t, init);
    } else {
      assert t + post == t;
    }
  }

  /** `strip()` removes exactly the whitespace around a text whose two ends
      are not whitespace: `"  Katja  "` strips to `"Katja"`. */
  lemma StripSurrounded(pre: string, core: string, post: string)
    requires AllStripSpace(pre) && AllStripSpace(post)
    requires core != [] && !IsStripSpace(core[0]) && !IsStripSpace(core[|core| - 1])
    ensures Strip(pre + core + post) == core
  {
    assert pre + core + post == pre + (core + post);
    TrimStartSpaces(pre, core + post);
    TrimEndSpaces(core, post);
  }

  /** A text with no whitespace at either end is left alone by `strip()`. */
  lemma StripUnpadded(s: string)
    requires s != [] && !IsStripSpace(s[0]) && !IsStripSpace(s[|s| - 1])
    ensures Strip(s) == s
  {
    assert "" + s + "" == s;
    StripSurrounded("", s, "");
  }
}

=== FILE: upload.dfy ===
/** The upload loop of `upload_appointments_to_google_calendar`: every
    appointment becomes a calendar event unless an event with the same
    summary and start is already listed. The credentials, the API client and
    the listing request are outside the model: the listed events arrive as a
    parameter and the events to insert are the result. */
module Upload {
  import opened Wrappers
  import opened Calendar

  /** The settings the upload reads, with the defaults of `Config`. */
  datatype Config = Config(
    therapyPracticeAddress: seq<string>,
    therapyKindMapping: map<string, string>,
    appointmentDurationMinutes: int)

  const DefaultConfig: Config := Config(
    ["Therapiezentrum am Stadtpark", "Stadtpark 1", "12345 Musterstadt"],
    map["KG ZNS" := "Krankengymnastik", "O60" := "Osteopathie"],
    30)

  /** What the loop reads of an appointment: its naive start, its therapy
      kind as printed on the schedule, and the therapist. */
  datatype Appointment = Appointment(date: DateTime, therapyKind: string, therapistName: string)

  predicate ValidAppointments(apps: seq<Appointment>) {
    forall i :: 0 <= i < |apps| ==> IsPyDateTime(apps[i].date)
  }

  /** What the loop reads of a listed event: `event.get("summary")` and
      `event.get("start", {}).get("dateTime")`, each of which may be missing. */
  datatype ListedEvent = ListedEvent(summary: Option<string>, startDateTime: Option<string>)

  type Key = (Option<string>, Option<string>)

  /** The set of (summary, start) pairs of the listed events. */
  function ExistingKeys(listed: seq<ListedEvent>): (keys: set<Key>)
    ensures forall i :: 0 <= i < |listed| ==> (listed[i].summary, listed[i].startDateTime) in keys
    ensures forall k :: k in keys ==> exists i :: 0 <= i < |listed| && k == (listed[i].summary, listed[i].startDateTime)
  {
    set e | e in listed :: (e.summary, e.startDateTime)
  }

  /** The event time layout: an ISO date-time and the zone it is read in. */
  datatype EventTime = EventTime(dateTime: string, timeZone: string)

  /** The body of an `events.insert` request. */
  datatype Event = Event(
    summary: string,
    location: string,
    description: string,
    start: EventTime,
    end: EventTime,
    status: string)

  const TimeZone: string := "Europe/Berlin"

  /** `mapping.get(kind, kind)`: the configured display name, or the kind
      itself when none is configured. */
  function DisplayName(config: Config, kind: string): (name: string)
    ensures kind in config.therapyKindMapping ==> name == config.therapyKindMapping[kind]
    ensures kind !in config.therapyKindMapping ==> name == kind
  {
    if kind in config.therapyKindMapping then config.therapyKindMapping[kind] else kind
  }

  /** `"\n".join(lines)`: the text starts with the first line;
      `SplitJoinLines` states that it splits back into the lines. */
  function JoinLines(lines: seq<string>): (r: string)
    ensures |lines| >= 1 ==> lines[0] <= r
  {
    if |lines| == 0 then ""
    else if |lines| == 1 then lines[0]
    else lines[0] + "\n" + JoinLines(lines[1..])
  }

  /** `s.split("\n")`: the pieces between line feeds, always at least one. */
  function SplitLines(s: string): (pieces: seq<string>)
    ensures |pieces| >= 1
  {
    if s == [] then [""]
    else
      var rest := SplitLines(s[1..]);
      if s[0] == '\n' then [""] + rest
      else [[s[0]] + rest[0]] + rest[1..]
  }

  predicate NoLineFeed(s: string) {
    forall k :: 0 <= k < |s| ==> s[k] != '\n'
  }

  /** A piece without a line feed in front of a text joins that text's
      first line. */
  lemma {:induction false} SplitLinesAfterWord(w: string, t: string)
    requires NoLineFeed(w)
    ensures SplitLines(w + t) == [w + SplitLines(t)[0]] + SplitLines(t)[1..]
    decreases |w|
  {
    if w != [] {
      assert (w + t)[1..] == w[1..] + t;
      SplitLinesAfterWord(w[1..], t);
      assert [w[0]] + (w[1..] + SplitLines(t)[0]) == w + SplitLines(t)[0];
    } else {
      var pieces := SplitLines(t);
      assert w + t == t;
      assert w + pieces[0] == pieces[0];
      assert [pieces[0]] + pieces[1..] == pieces;
    }
  }

  /** Splitting the joined address gives back its lines, when no line holds a
      line feed of its own. */
  lemma {:induction false} SplitJoinLines(lines: seq<string>)
    requires |lines| >= 1
    requires forall i :: 0 <= i < |lines| ==> NoLineFeed(lines[i])
    ensures SplitLines(JoinLines(lines)) == lines
    decreases |lines|
  {
    if |lines| == 1 {
      SplitLinesAfterWord(lines[0], "");
      assert lines[0] + "" == lines[0];
    } else {
      var rest := JoinLines(lines[1..]);
      SplitJoinLines(lines[1..]);
      assert lines[0] + "\n" + rest == lines[0] + ("\n" + rest);
      SplitLinesAfterWord(lines[0], "\n" + rest);
      assert ("\n" + rest)[1..] == rest;
      assert SplitLines("\n" + rest) == [""] + lines[1..];
      assert lines[0] + "" == lines[0];
      assert [lines[0]] + lines[1..] == lines;
    }
  }

  /** `(date + timedelta(minutes=n))`, or `None` where Python raises
      `OverflowError` because the end falls outside the years 1..9999. */
  function EndTime(date: DateTime, n: int): (r: Option<DateTime>)
    requires IsPyDateTime(date)
    ensures r.Some? ==> IsPyDateTime(r.value) && MinuteNumber(r.value) == MinuteNumber(date) + n
  {
    var e := AddMinutes(date, n);
    if IsPyDateTime(e) then Some(e) else None
  }

  /** The end exists exactly when some moment of the years 1..9999 lies
      `n` minutes after the start, and then it is that moment. */
  lemma EndTimeMeaning(date: DateTime, n: int)
    requires IsPyDateTime(date)
    ensures var r := EndTime(date, n);
      && (r.Some? <==> exists e :: IsPyDateTime(e) && MinuteNumber(e) == MinuteNumber(date) + n)
      && (r.Some? ==> IsPyDateTime(r.value) && MinuteNumber(r.value) == MinuteNumber(date) + n)
  {
    forall e | IsPyDateTime(e) && MinuteNumber(e) == MinuteNumber(date) + n
      ensures e == AddMinutes(date, n)
    {
      AddMinutesUnique(date, n, e);
    }
  }

  /** What an appointment turns into before the listed keys are consulted:
      the (display name, start) pair it would be listed under, and its event,
      or none where computing the end raised `OverflowError`. */
  datatype Plan = Plan(key: Key, event: Option<Event>)

  /** The part of a loop turn that does not depend on the listing: the
      display name, the ISO start and end, the key, and the event body. */
  function PlanOf(config: Config, a: Appointment): (p: Plan)
    requires IsPyDateTime(a.date)
    ensures p.event.Some? ==> p.key == (Some(p.event.value.summary), Some(p.event.value.start.dateTime))
  {
    var display := DisplayName(config, a.therapyKind);
    var start := IsoFormat(a.date);
    var key := (Some(display), Some(start));
    match EndTime(a.date, config.appointmentDurationMinutes)
    case None => Plan(key, None)
    case Some(end) =>
      Plan(key, Some(Event(
        display,
        JoinLines(config.therapyPracticeAddress),
        a.therapistName,
        EventTime(start, TimeZone),
        EventTime(IsoFormat(end), TimeZone),
        "confirmed")))
  }

  /** The key is the display name and the ISO start; the event is missing
      exactly when no moment of the years 1..9999 lies the configured
      duration after the start. */
  lemma PlanOutcome(config: Config, a: Appointment)
    requires IsPyDateTime(a.date)
    ensures var p := PlanOf(config, a);
      && p.key == (Some(DisplayName(config, a.therapyKind)), Some(IsoFormat(a.date)))
      && (p.event.None? <==>
            !exists e :: IsPyDateTime(e) && MinuteNumber(e) == MinuteNumber(a.date) + config.appointmentDurationMinutes)
  {
    EndTimeMeaning(a.date, config.appointmentDurationMinutes);
  }

  /** The event carries the display name, the joined address, the therapist,
      a start and an end in Berlin time whose ISO strings read back as the
      appointment's moment and the moment the configured duration later, and
      is confirmed; it is listed under the appointment's key. */
  lemma PlanEvent(config: Config, a: Appointment)
    requires IsPyDateTime(a.date)
    requires PlanOf(config, a).event.Some?
    ensures var e := PlanOf(config, a).event.value;
      && e.summary == DisplayName(config, a.therapyKind)
      && e.location == JoinLines(config.therapyPracticeAddress)
      && e.description == a.therapistName
      && e.start.timeZone == TimeZone && e.end.timeZone == TimeZone
      && IsoLayout(e.start.dateTime) && IsoFields(e.start.dateTime) == a.date
      && IsoLayout(e.end.dateTime)
      && IsPyDateTime(IsoFields(e.end.dateTime))
      && MinuteNumber(IsoFields(e.end.dateTime)) == MinuteNumber(a.date) + config.appointmentDurationMinutes
      && e.status == "confirmed"
      && ListedAs(e) == ListedEvent(PlanOf(config, a).key.0, PlanOf(config, a).key.1)
  {
    IsoRoundTrip(a.date);
    EndTimeMeaning(a.date, config.appointmentDurationMinutes);
    IsoRoundTrip(EndTime(a.date, config.appointmentDurationMinutes).value);
  }

  /** Which therapist the appointment is with changes neither its key nor
      whether it overflows; it only ends up in the description. */
  lemma TherapistOnlyDescribes(config: Config, a: Appointment, name: string)
    requires IsPyDateTime(a.date)
    ensures var p := PlanOf(config, a);
            var p' := PlanOf(config, a.(therapistName := name));
            && p'.key == p.key && p'.event.Some? == p.event.Some?
            && (p.event.Some? ==> p'.event.value == p.event.value.(description := name))
  {
  }

  /** The (summary, start) pair an inserted event will be listed under. */
  function ListedAs(e: Event): ListedEvent {
    ListedEvent(Some(e.summary), Some(e.start.dateTime))
  }

  function ListedAll(events: seq<Event>): (listed: seq<ListedEvent>)
    ensures |listed| == |events|
    ensures forall i :: 0 <= i < |events| ==> listed[i] == ListedAs(events[i])
  {
    if events == [] then [] else [ListedAs(events[0])] + ListedAll(events[1..])
  }

  /** The plans of the appointments, in order. */
  function Plans(config: Config, apps: seq<Appointment>): (ps: seq<Plan>)
    requires ValidAppointments(apps)
    ensures |ps| == |apps|
  {
    if apps == [] then [] else [PlanOf(config, apps[0])] + Plans(config, apps[1..])
  }

  lemma {:induction false} PlansAt(config: Config, apps: seq<Appointment>, i: nat)
    requires ValidAppointments(apps) && i < |apps|
    ensures Plans(config, apps)[i] == PlanOf(config, apps[i])
    decreases |apps|
  {
    if i > 0 {
      PlansAt(config, apps[1..], i - 1);
    }
  }

  /** The plan at `i` has no event exactly when the end of the appointment
      at `i` overflows. */
  lemma PlansOverflowAt(config: Config, apps: seq<Appointment>, i: nat)
    requires ValidAppointments(apps) && i < |apps|
    ensures Plans(config, apps)[i].event.None? <==> EndTime(apps[i].date, config.appointmentDurationMinutes).None?
  {
    PlansAt(config, apps, i);
  }

  /** What the loop does with one appointment. */
  datatype Decision = Skip | Insert(event: Event) | Overflow

  /** The rest of a loop turn: an overflow aborts, a listed key skips,
      and otherwise the event is inserted. */
  function Decide(keys: set<Key>, p: Plan): (d: Decision)
    ensures d.Overflow? <==> p.event.None?
    ensures d.Insert? ==> Some(d.event) == p.event && p.key !in keys
  {
    if p.event.None? then Overflow
    else if p.key in keys then Skip
    else Insert(p.event.value)
  }

  /** An appointment aborts the loop exactly when its end falls outside the
      years 1..9999, is skipped exactly when its (display name, ISO start)
      pair is listed, and is otherwise inserted with its own event. */
  lemma DecideOutcome(config: Config, keys: set<Key>, a: Appointment)
    requires IsPyDateTime(a.date)
    ensures var d := Decide(keys, PlanOf(config, a));
      && (d.Overflow? <==> !exists e :: IsPyDateTime(e) && MinuteNumber(e) == MinuteNumber(a.date) + config.appointmentDurationMinutes)
      && (d.Skip? <==> !d.Overflow? && (Some(DisplayName(config, a.therapyKind)), Some(IsoFormat(a.date))) in keys)
      && (d.Insert? ==> d.event == PlanOf(config, a).event.value)
  {
    PlanOutcome(config, a);
  }

  /** Every plan decided against the same key set. */
  function Decisions(keys: set<Key>, ps: seq<Plan>): (ds: seq<Decision>)
    ensures |ds| == |ps|
    ensures forall i :: 0 <= i < |ps| ==> ds[i] == Decide(keys, ps[i])
  {
    if ps == [] then [] else [Decide(keys, ps[0])] + Decisions(keys, ps[1..])
  }

  /** Where the loop stands: either it went through every appointment with
      `uploaded_count` and `skipped_count`, or an `OverflowError` left it at
      `failedAt`, after the events before it were inserted. */
  datatype Outcome =
    | Completed(inserted: seq<Event>, uploaded: nat, skipped: nat)
    | Aborted(inserted: seq<Event>, failedAt: nat)

  /** One turn of the loop on appointment `index`: an aborted loop stays as
      it is, insertions are never undone, and a completed turn counts the
      appointment once, as uploaded with its event or as skipped. */
  function Step(o: Outcome, d: Decision, index: nat): (r: Outcome)
    ensures o.Aborted? ==> r == o
    ensures o.inserted <= r.inserted
    ensures r.Completed? ==> o.Completed? && r.uploaded + r.skipped == o.uploaded + o.skipped + 1
    ensures r.Completed? ==> |r.inserted| - |o.inserted| == r.uploaded - o.uploaded
    ensures o.Completed? && r.Aborted? ==> d.Overflow? && r.failedAt == index
  {
    match o
    case Aborted(_, _) => o
    case Completed(inserted, uploaded, skipped) =>
      match d
      case Overflow => Aborted(inserted, index)
      case Skip => Completed(inserted, uploaded, skipped + 1)
      case Insert(e) => Completed(inserted + [e], uploaded + 1, skipped)
  }

  /** The loop over a sequence of decisions. When it completes it has
      counted every appointment once, as uploaded or as skipped, with one
      inserted event per upload; when it aborts, it aborts inside the
      sequence. */
  function Fold(ds: seq<Decision>): (o: Outcome)
    ensures o.Completed? ==> o.uploaded + o.skipped == |ds| && o.uploaded == |o.inserted|
    ensures o.Aborted? ==> o.failedAt < |ds|
  {
    if ds == [] then Completed([], 0, 0)
    else
      var n := |ds| - 1;
      Step(Fold(ds[..n]), ds[n], n)
  }

  /** The loop completes exactly when no decision overflows, and otherwise
      stops at the first overflow. */
  lemma {:induction false} FoldAbortsAtFirstOverflow(ds: seq<Decision>)
    ensures var o := Fold(ds);
      && (o.Completed? <==> forall i :: 0 <= i < |ds| ==> !ds[i].Overflow?)
      && (o.Aborted? ==> ds[o.failedAt].Overflow? && forall j :: 0 <= j < o.failedAt ==> !ds[j].Overflow?)
    decreases |ds|
  {
    if ds != [] {
      var n := |ds| - 1;
      FoldAbortsAtFirstOverflow(ds[..n]);
      assert forall i :: 0 <= i < n ==> ds[..n][i] == ds[i];
    }
  }

  /** The loop over the plans against the listed keys. */
  function Run(keys: set<Key>, ps: seq<Plan>): Outcome {
    Fold(Decisions(keys, ps))
  }

  /** `upload_appointments_to_google_calendar` after the listing: the loop
      over the appointments against the listed keys. */
  function Upload(config: Config, keys: set<Key>, apps: seq<Appointment>): (o: Outcome)
    requires ValidAppointments(apps)
    ensures o.Completed? ==> o.uploaded + o.skipped == |apps| && o.uploaded == |o.inserted|
    ensures o.Aborted? ==> o.failedAt < |apps|
  {
    Run(keys, Plans(config, apps))
  }

  /** A run completes exactly when every plan has its event, and otherwise
      stops at the first plan without one. */
  lemma RunStopsAtFirstOverflow(keys: set<Key>, ps: seq<Plan>)
    ensures var o := Run(keys, ps);
      && (o.Completed? <==> forall i :: 0 <= i < |ps| ==> ps[i].event.Some?)
      && (o.Aborted? ==>
            && ps[o.failedAt].event.None?
            && forall j :: 0 <= j < o.failedAt ==> ps[j].event.Some?)
  {
    FoldAbortsAtFirstOverflow(Decisions(keys, ps));
  }

  /** The upload completes exactly when every end lies within the years
      1..9999; when it completes it has counted every appointment once, as
      uploaded or as skipped. */
  lemma UploadCompletes(config: Config, keys: set<Key>, apps: seq<Appointment>)
    requires ValidAppointments(apps)
    ensures var o := Upload(config, keys, apps);
      && (o.Completed? <==> forall i :: 0 <= i < |apps| ==> EndTime(apps[i].date, config.appointmentDurationMinutes).Some?)
      && (o.Completed? ==> o.uploaded + o.skipped == |apps| && o.uploaded == |o.inserted|)
  {
    var ps := Plans(config, apps);
    RunStopsAtFirstOverflow(keys, ps);
    var o := Run(keys, ps);
    if o.Aborted? {
      PlansOverflowAt(config, apps, o.failedAt);
    } else {
      forall i | 0 <= i < |apps|
        ensures EndTime(apps[i].date, config.appointmentDurationMinutes).Some?
      {
        PlansOverflowAt(config, apps, i);
      }
    }
  }

  /** Otherwise it stops at the first appointment whose end lies outside
      the years 1..9999. */
  lemma UploadAbortsAtFirstOverflow(config: Config, keys: set<Key>, apps: seq<Appointment>)
    requires ValidAppointments(apps)
    ensures var o := Upload(config, keys, apps);
      o.Aborted? ==>
        && o.failedAt < |apps|
        && EndTime(apps[o.failedAt].date, config.appointmentDurationMinutes).None?
        && forall j :: 0 <= j < o.failedAt ==> EndTime(apps[j].date, config.appointmentDurationMinutes).Some?
  {
    var ps := Plans(config, apps);
    RunStopsAtFirstOverflow(keys, ps);
    var o := Run(keys, ps);
    if o.Aborted? {
      PlansOverflowAt(config, apps, o.failedAt);
      forall j | 0 <= j < o.failedAt
        ensures EndTime(apps[j].date, config.appointmentDurationMinutes).Some?
      {
        PlansOverflowAt(config, apps, j);
      }
    }
  }

  /** The inserted events, read off the decisions in order. */
  function NewEvents(ds: seq<Decision>): seq<Event> {
    if ds == [] then []
    else (if ds[0].Insert? then [ds[0].event] else []) + NewEvents(ds[1..])
  }

  /** How many decisions are skips. */
  function SkipCount(ds: seq<Decision>): nat {
    if ds == [] then 0
    else (if ds[0].Skip? then 1 else 0) + SkipCount(ds[1..])
  }

  lemma {:induction false} NewEventsSnoc(ds: seq<Decision>, d: Decision)
    ensures NewEvents(ds + [d]) == NewEvents(ds) + (if d.Insert? then [d.event] else [])
    ensures SkipCount(ds + [d]) == SkipCount(ds) + (if d.Skip? then 1 else 0)
    decreases |ds|
  {
    if ds != [] {
      assert (ds + [d])[1..] == ds[1..] + [d];
      assert (ds + [d])[0] == ds[0];
      NewEventsSnoc(ds[1..], d);
    } else {
      assert ds + [d] == [d];
      assert [d][1..] == [];
    }
  }

  /** The loop agrees with the reference reading: when it completes it has
      inserted exactly the events of the unlisted appointments, in input
      order, and skipped exactly the listed ones; when it aborts, it has
      inserted the events of the unlisted appointments before the failing
      one. */
  lemma {:induction false} FoldInsertsNewEvents(ds: seq<Decision>)
    ensures var o := Fold(ds);
            && (o.Completed? ==> o.inserted == NewEvents(ds) && o.skipped == SkipCount(ds))
            && (o.Aborted? ==> o.inserted == NewEvents(ds[..o.failedAt]))
    decreases |ds|
  {
    if ds != [] {
      var n := |ds| - 1;
      var prefix := ds[..n];
      FoldInsertsNewEvents(prefix);
      NewEventsSnoc(prefix, ds[n]);
      assert prefix + [ds[n]] == ds;
      var o := Fold(prefix);
      if o.Aborted? {
        assert ds[..o.failedAt] == prefix[..o.failedAt];
      } else {
        assert ds[..n] == prefix;
      }
    }
  }

  /** Running one batch after another: the counts add up, the insertions
      follow one another, and a failure in the second batch is reported at
      its place in the whole. */
  function Then(first: Outcome, second: Outcome, offset: nat): Outcome {
    match first
    case Aborted(_, _) => first
    case Completed(inserted, uploaded, skipped) =>
      match second
      case Completed(more, u, s) => Completed(inserted + more, uploaded + u, skipped + s)
      case Aborted(more, at) => Aborted(inserted + more, offset + at)
  }

  /** Appending one decision to the second batch is appending it to the
      whole. */
  lemma ThenStep(o: Outcome, p: Outcome, d: Decision, offset: nat, n: nat)
    ensures Then(o, Step(p, d, n), offset) == Step(Then(o, p, offset), d, offset + n)
  {
    if o.Completed? && p.Completed? && d.Insert? {
      assert o.inserted + p.inserted + [d.event] == o.inserted + (p.inserted + [d.event]);
    }
  }

  lemma {:induction false} FoldConcat(xs: seq<Decision>, ys: seq<Decision>)
    ensures Fold(xs + ys) == Then(Fold(xs), Fold(ys), |xs|)
    decreases |ys|
  {
    if ys == [] {
      assert xs + ys == xs;
      var o := Fold(xs);
      if o.Completed? {
        assert o.inserted + [] == o.inserted;
      }
    } else {
      var n := |ys| - 1;
      FoldConcat(xs, ys[..n]);
      assert (xs + ys)[..|xs| + n] == xs + ys[..n];
      assert (xs + ys)[|xs| + n] == ys[n];
      ThenStep(Fold(xs), Fold(ys[..n]), ys[n], |xs|, n);
    }
  }

  lemma ValidConcat(xs: seq<Appointment>, ys: seq<Appointment>)
    requires ValidAppointments(xs) && ValidAppointments(ys)
    ensures ValidAppointments(xs + ys)
  {
    forall i | 0 <= i < |xs + ys|
      ensures IsPyDateTime((xs + ys)[i].date)
    {
      if i >= |xs| {
        assert (xs + ys)[i] == ys[i - |xs|];
      }
    }
  }

  lemma {:induction false} PlansConcat(config: Config, xs: seq<Appointment>, ys: seq<Appointment>)
    requires ValidAppointments(xs) && ValidAppointments(ys)
    ensures ValidAppointments(xs + ys)
    ensures Plans(config, xs + ys) == Plans(config, xs) + Plans(config, ys)
    decreases |xs|
  {
    ValidConcat(xs, ys);
    if xs == [] {
      assert xs + ys == ys;
    } else {
      assert (xs + ys)[1..] == xs[1..] + ys;
      assert (xs + ys)[0] == xs[0];
      PlansConcat(config, xs[1..], ys);
      var head := [PlanOf(config, xs[0])];
      calc {
        Plans(config, xs + ys);
        head + Plans(config, xs[1..] + ys);
        head + (Plans(config, xs[1..]) + Plans(config, ys));
        { SeqAssoc(head, Plans(config, xs[1..]), Plans(config, ys)); }
        (head + Plans(config, xs[1..])) + Plans(config, ys);
        Plans(config, xs) + Plans(config, ys);
      }
    }
  }

  lemma DecisionsConcat(keys: set<Key>, ps: seq<Plan>, qs: seq<Plan>)
    ensures Decisions(keys, ps + qs) == Decisions(keys, ps) + Decisions(keys, qs)
  {
    var dp := Decisions(keys, ps);
    var dq := Decisions(keys, qs);
    var d := Decisions(keys, ps + qs);
    forall i | 0 <= i < |d|
      ensures d[i] == (dp + dq)[i]
    {
      if i >= |ps| {
        assert (ps + qs)[i] == qs[i - |ps|];
      }
    }
  }

  /** The key set is listed once and never added to, so uploading two
      batches in one run is uploading each of them against the same keys. */
  lemma UploadConcat(config: Config, keys: set<Key>, xs: seq<Appointment>, ys: seq<Appointment>)
    requires ValidAppointments(xs) && ValidAppointments(ys)
    ensures ValidAppointments(xs + ys)
    ensures Upload(config, keys, xs + ys) == Then(Upload(config, keys, xs), Upload(config, keys, ys), |xs|)
  {
    PlansConcat(config, xs, ys);
    DecisionsConcat(keys, Plans(config, xs), Plans(config, ys));
    FoldConcat(Decisions(keys, Plans(config, xs)), Decisions(keys, Plans(config, ys)));
  }

  lemma FoldInsertTwice(d: Decision)
    requires d.Insert?
    ensures Fold([d, d]) == Completed([d.event, d.event], 2, 0)
  {
    assert [d, d][..1] == [d];
    assert [d][..0] == [];
  }

  /** The loop never adds to the key set: an appointment twice in one batch
      whose key is not listed is inserted twice. */
  lemma UnlistedDuplicateInsertedTwice(config: Config, keys: set<Key>, a: Appointment)
    requires IsPyDateTime(a.date)
    requires EndTime(a.date, config.appointmentDurationMinutes).Some?
    requires (Some(DisplayName(config, a.therapyKind)), Some(IsoFormat(a.date))) !in keys
    ensures ValidAppointments([a, a])
    ensures var o := Upload(config, keys, [a, a]);
            && o.Completed? && o.uploaded == 2 && o.skipped == 0
            && o.inserted[0] == o.inserted[1]
  {
    var p := PlanOf(config, a);
    PlansTwice(config, a);
    var d := Decide(keys, p);
    assert Decisions(keys, [p, p]) == [d, d];
    FoldInsertTwice(d);
  }

  lemma PlansTwice(config: Config, a: Appointment)
    requires IsPyDateTime(a.date)
    ensures ValidAppointments([a, a])
    ensures Plans(config, [a, a]) == [PlanOf(config, a), PlanOf(config, a)]
  {
    PlansAt(config, [a, a], 0);
    PlansAt(config, [a, a], 1);
  }

  lemma {:induction false} InsertedAmongNewEvents(ds: seq<Decision>, i: nat)
    requires i < |ds| && ds[i].Insert?
    ensures ds[i].event in NewEvents(ds)
    decreases |ds|
  {
    if i > 0 {
      InsertedAmongNewEvents(ds[1..], i - 1);
    }
  }

  lemma {:induction false} AllSkipped(ds: seq<Decision>)
    requires forall i :: 0 <= i < |ds| ==> ds[i].Skip?
    ensures Fold(ds) == Completed([], 0, |ds|)
    decreases |ds|
  {
    if ds != [] {
      AllSkipped(ds[..|ds| - 1]);
    }
  }

  /** A listed key stays listed when more events are listed after it. */
  lemma StillListed(listed: seq<ListedEvent>, more: seq<ListedEvent>, k: Key)
    requires k in ExistingKeys(listed)
    ensures k in ExistingKeys(listed + more)
  {
    var j :| 0 <= j < |listed| && k == (listed[j].summary, listed[j].startDateTime);
    assert (listed + more)[j] == listed[j];
  }

  /** An inserted event, once listed, is listed under its summary and start. */
  lemma NewlyListed(listed: seq<ListedEvent>, events: seq<Event>, e: Event)
    requires e in events
    ensures (Some(e.summary), Some(e.start.dateTime)) in ExistingKeys(listed + ListedAll(events))
  {
    var k :| 0 <= k < |events| && events[k] == e;
    assert (listed + ListedAll(events))[|listed| + k] == ListedAs(e);
  }

  /** Every event is listed under the key of its own plan. */
  predicate ListedUnderKey(ps: seq<Plan>) {
    forall i :: 0 <= i < |ps| && ps[i].event.Some? ==>
      (Some(ps[i].event.value.summary), Some(ps[i].event.value.start.dateTime)) == ps[i].key
  }

  lemma PlansListedUnderKey(config: Config, apps: seq<Appointment>)
    requires ValidAppointments(apps)
    ensures ListedUnderKey(Plans(config, apps))
  {
    var ps := Plans(config, apps);
    forall i | 0 <= i < |ps| && ps[i].event.Some?
      ensures (Some(ps[i].event.value.summary), Some(ps[i].event.value.start.dateTime)) == ps[i].key
    {
      PlansAt(config, apps, i);
      PlanEvent(config, apps[i]);
    }
  }

  /** Once the events of a completed run are listed beside the earlier
      ones, the same plans decide to skip every one. */
  lemma {:induction false} RerunSkipsPlans(listed: seq<ListedEvent>, ps: seq<Plan>)
    requires ListedUnderKey(ps)
    requires Fold(Decisions(ExistingKeys(listed), ps)).Completed?
    ensures var again := listed + ListedAll(Fold(Decisions(ExistingKeys(listed), ps)).inserted);
            Fold(Decisions(ExistingKeys(again), ps)) == Completed([], 0, |ps|)
  {
    var ds := Decisions(ExistingKeys(listed), ps);
    var inserted := Fold(ds).inserted;
    FoldInsertsNewEvents(ds);
    FoldAbortsAtFirstOverflow(ds);
    var more := ListedAll(inserted);
    var ds' := Decisions(ExistingKeys(listed + more), ps);
    forall i | 0 <= i < |ps|
      ensures ds'[i].Skip?
    {
      assert !ds[i].Overflow?;
      if ds[i].Skip? {
        StillListed(listed, more, ps[i].key);
      } else {
        InsertedAmongNewEvents(ds, i);
        NewlyListed(listed, inserted, ps[i].event.value);
      }
    }
    AllSkipped(ds');
  }

  /** Running the upload again, once the inserted events are listed beside
      the earlier ones, uploads nothing and skips every appointment. */
  lemma RerunSkipsEverything(config: Config, listed: seq<ListedEvent>, apps: seq<Appointment>)
    requires ValidAppointments(apps)
    requires Upload(config, ExistingKeys(listed), apps).Completed?
    ensures var again := listed + ListedAll(Upload(config, ExistingKeys(listed), apps).inserted);
            Upload(config, ExistingKeys(again), apps) == Completed([], 0, |apps|)
  {
    PlansListedUnderKey(config, apps);
    RerunSkipsPlans(listed, Plans(config, apps));
  }

  /** The skip compares start strings as they are: an event listed with its
      start written with a UTC offset after the naive ISO start it was sent
      with is not recognised, and the appointment is inserted again. */
  lemma OffsetStartNotRecognised(config: Config, a: Appointment, offset: string)
    requires IsPyDateTime(a.date) && EndTime(a.date, config.appointmentDurationMinutes).Some?
    requires offset != []
    ensures var listed := [ListedEvent(Some(DisplayName(config, a.therapyKind)), Some(IsoFormat(a.date) + offset))];
            Decide(ExistingKeys(listed), PlanOf(config, a)) == Insert(PlanOf(config, a).event.value)
  {
    var listed := [ListedEvent(Some(DisplayName(config, a.therapyKind)), Some(IsoFormat(a.date) + offset))];
    PlanOutcome(config, a);
    EndTimeMeaning(a.date, config.appointmentDurationMinutes);
    assert |IsoFormat(a.date) + offset| != |IsoFormat(a.date)|;
    assert PlanOf(config, a).key !in ExistingKeys(listed);
  }

  lemma FoldPrefixStep(ds: seq<Decision>, i: nat)
    requires i < |ds|
    ensures Fold(ds[..i + 1]) == Step(Fold(ds[..i]), ds[i], i)
  {
    assert ds[..i + 1][..i] == ds[..i];
  }

  /** Once the loop has aborted, the appointments after the failing one
      change nothing. */
  lemma {:induction false} FoldStopsAt(ds: seq<Decision>, i: nat)
    requires i < |ds| && Fold(ds[..i]).Completed? && ds[i].Overflow?
    ensures Fold(ds) == Aborted(Fold(ds[..i]).inserted, i)
    decreases |ds|
  {
    if |ds| == i + 1 {
      FoldPrefixStep(ds, i);
      assert ds[..i + 1] == ds;
    } else {
      var n := |ds| - 1;
      assert ds[..n][..i] == ds[..i];
      FoldStopsAt(ds[..n], i);
    }
  }

  /** The loop of the source with its two counters, over the plans: it
      leaves at the first `OverflowError`, skips a listed key and inserts
      the event otherwise. */
  method RunLoop(keys: set<Key>, plans: seq<Plan>) returns (o: Outcome)
    ensures o == Run(keys, plans)
  {
    ghost var ds := Decisions(keys, plans);
    o := Completed([], 0, 0);
    var i := 0;
    while i < |plans|
      invariant 0 <= i <= |plans|
      invariant o.Completed? && Fold(ds[..i]) == o
    {
      FoldPrefixStep(ds, i);
      var plan := plans[i];
      if plan.event.None? {
        FoldStopsAt(ds, i);
        return Aborted(o.inserted, i);
      }
      if plan.key in keys {
        o := o.(skipped := o.skipped + 1);
      } else {
        o := o.(inserted := o.inserted + [plan.event.value], uploaded := o.uploaded + 1);
      }
      i := i + 1;
    }
    assert ds[..i] == ds;
  }

  /** The decision for the appointment at `i` is the one for its own plan. */
  lemma DecisionAt(config: Config, keys: set<Key>, apps: seq<Appointment>, i: nat)
    requires ValidAppointments(apps) && i < |apps|
    ensures Decisions(keys, Plans(config, apps))[i] == Decide(keys, PlanOf(config, apps[i]))
  {
    PlansAt(config, apps, i);
  }

  /** Turn `i` of the source's loop. An `OverflowError` happens exactly when
      the end has no moment in the years 1..9999 (`EndTimeMeaning`).
      Otherwise the appointment is skipped exactly when its (display
      name, ISO start) key is listed. Otherwise it is inserted as an event
      with the display name, the joined address, the therapist, Berlin start
      and end strings that read back as the appointment's moment and the
      moment the duration later, and the status "confirmed". The decision is
      the one the plan-first reference makes for the same appointment. */
  method UploadTurn(config: Config, keys: set<Key>, apps: seq<Appointment>, i: nat) returns (d: Decision)
    requires ValidAppointments(apps) && i < |apps|
    ensures var a := apps[i];
      && (d.Overflow? <==> EndTime(a.date, config.appointmentDurationMinutes).None?)
      && (d.Skip? <==> !d.Overflow? && (Some(DisplayName(config, a.therapyKind)), Some(IsoFormat(a.date))) in keys)
    ensures var a := apps[i];
      d.Insert? ==>
        && d.event.summary == DisplayName(config, a.therapyKind)
        && d.event.location == JoinLines(config.therapyPracticeAddress)
        && d.event.description == a.therapistName
        && d.event.status == "confirmed"
        && d.event.start.timeZone == TimeZone && d.event.end.timeZone == TimeZone
        && IsoLayout(d.event.start.dateTime) && IsoFields(d.event.start.dateTime) == a.date
        && IsoLayout(d.event.end.dateTime) && IsPyDateTime(IsoFields(d.event.end.dateTime))
        && MinuteNumber(IsoFields(d.event.end.dateTime)) == MinuteNumber(a.date) + config.appointmentDurationMinutes
    ensures d == Decisions(keys, Plans(config, apps))[i]
  {
    DecisionAt(config, keys, apps, i);
    var a := apps[i];
    EndTimeMeaning(a.date, config.appointmentDurationMinutes);
    var display := DisplayName(config, a.therapyKind);
    var start := IsoFormat(a.date);
    var end := EndTime(a.date, config.appointmentDurationMinutes);
    if end.None? {
      return Overflow;
    }
    var key := (Some(display), Some(start));
    if key in keys {
      return Skip;
    }
    IsoRoundTrip(a.date);
    IsoRoundTrip(end.value);
    var event := Event(display, JoinLines(config.therapyPracticeAddress), a.therapistName,
                       EventTime(start, TimeZone), EventTime(IsoFormat(end.value), TimeZone),
                       "confirmed");
    return Insert(event);
  }

  /** The body of the source's loop for appointment `i`, on a loop that has
      not aborted: the turn's decision, then the bookkeeping `Step` defines
      (leave on an overflow, count a skip, or keep the event and count the
      upload). The loop leaves exactly when the appointment's plan is an
      overflow. */
  method UploadStep(config: Config, keys: set<Key>, apps: seq<Appointment>, i: nat, o: Outcome)
    returns (next: Outcome)
    requires ValidAppointments(apps) && i < |apps|
    requires o.Completed?
    ensures next == Step(o, Decisions(keys, Plans(config, apps))[i], i)
    ensures next.Aborted? <==> Decisions(keys, Plans(config, apps))[i].Overflow?
  {
    var d := UploadTurn(config, keys, apps, i);
    next := Step(o, d, i);
  }

  /** The loop of the source over the appointments themselves: each turn
      works out its appointment, leaves at the first `OverflowError`, counts
      a skip, or inserts the event and counts the upload. It reaches the
      outcome of the fold over the plans, so working out every plan first,
      as `Upload` does, changes nothing. */
  method UploadLoop(config: Config, keys: set<Key>, apps: seq<Appointment>) returns (o: Outcome)
    requires ValidAppointments(apps)
    ensures o == Upload(config, keys, apps)
  {
    ghost var ds := Decisions(keys, Plans(config, apps));
    o := Completed([], 0, 0);
    var i := 0;
    while i < |apps|
      invariant 0 <= i <= |apps|
      invariant o.Completed? && Fold(ds[..i]) == o
    {
      var next := UploadStep(config, keys, apps, i, o);
      FoldPrefixStep(ds, i);
      if next.Aborted? {
        FoldStopsAt(ds, i);
        return Aborted(o.inserted, i);
      }
      o := next;
      i := i + 1;
    }
    assert ds[..i] == ds;
  }
}

=== FILE: wrappers.dfy ===
/** Failure-compatible result types shared by the extractor and the uploader. */
module Wrappers {

  /** A value that may be absent (Python's `None`). */
  datatype Option<+T> = None | Some(value: T)

  /** The outcome of a computation that either returns a value or raises an error. */
  datatype Result<+T, +E> = Success(value: T) | Failure(error: E)

  /** Evaluates a sequence of fallible results in order: the first failure,
      or every value when none fails. */
  function CollectAll<T(==), E(==)>(rs: seq<Result<T, E>>): (r: Result<seq<T>, E>)
    ensures r.Success? <==> forall i :: 0 <= i < |rs| ==> rs[i].Success?
    ensures r.Success? ==> |r.value| == |rs| && forall i :: 0 <= i < |rs| ==> rs[i] == Success(r.value[i])
    ensures r.Failure? ==> exists i :: 0 <= i < |rs| && rs[i] == Failure(r.error)
                                       && forall j :: 0 <= j < i ==> rs[j].Success?
  {
    if rs == [] then Success([])
    else
      match rs[0]
      case Failure(e) => Failure(e)
      case Success(v) =>
        var tail := rs[1..];
        assert forall i :: 0 < i < |rs| ==> rs[i] == tail[i - 1];
        match CollectAll(tail)
        case Failure(e) =>
          var k :| 0 <= k < |tail| && tail[k] == Failure(e) && forall j :: 0 <= j < k ==> tail[j].Success?;
          assert rs[k + 1] == Failure(e);
          Failure(e)
        case Success(vs) => Success([v] + vs)
  }

  /** One more element in front of a collection: its failure comes first. */
  function Cons<T, E>(x: Result<T, E>, rest: Result<seq<T>, E>): Result<seq<T>, E> {
    match x
    case Failure(e) => Failure(e)
    case Success(v) =>
      match rest
      case Failure(e) => Failure(e)
      case Success(vs) => Success([v] + vs)
  }

  lemma CollectAllCons<T, E>(x: Result<T, E>, xs: seq<Result<T, E>>)
    ensures CollectAll([x] + xs) == Cons(x, CollectAll(xs))
  {
    assert ([x] + xs)[1..] == xs;
  }

  /** Concatenation regroups freely. */
  lemma SeqAssoc<T>(a: seq<T>, b: seq<T>, c: seq<T>)
    ensures a + (b + c) == (a + b) + c
  {
  }

  lemma AppendNothing<T>(a: seq<T>)
    ensures a + [] == a
  {
  }

  /** A slice of the right-hand part, read in the concatenation. */
  lemma SliceOfSuffix<T>(a: seq<T>, b: seq<T>, i: int, j: int)
    requires 0 <= i <= j <= |b|
    ensures (a + b)[|a| + i..|a| + j] == b[i..j]
  {
  }

  /** A slice of the left-hand part, read in the concatenation. */
  lemma SliceOfPrefix<T>(a: seq<T>, b: seq<T>, i: int, j: int)
    requires 0 <= i <= j <= |a|
    ensures (a + b)[i..j] == a[i..j]
  {
  }
}
